=== FILE: README.md ===
# Care-app list and calendar rules in Dafny

This project models the non-visual rules of a React Native care app for older
adults. These rules sit inside four screens:

- **Reminders.** The month calendar grid, month and year navigation, adding a
  reminder, today's reminders, and the today and has-reminder marks on
  calendar cells.
- **Therapies.** Adding a session, setting and cycling its status, deleting
  it, and the upcoming, completed and by-status views with their summary
  counts.
- **Medications.** Adding a medication, pausing or resuming it, deleting it,
  the active list with its active, paused and total summary, and grouping by
  category.
- **Home.** A list that mixes legacy plain strings with structured therapy
  records. It has two add paths, deletion by position, a four-state status
  toggle and a stats panel.

Each list is a `seq` of immutable records, and each screen operation is a
pure function from list to list or from list to count. Calendar arithmetic is
proleptic Gregorian on integers. Months are zero-based and weekdays run from
Sunday = 0, the way `getMonth()` and `getDay()` report them.

The Dafny modules, one per file:

- `Seqs` (`seqs.dfy`): the array operations the screens use. These are
  `filter`, filtering by position to delete, `indexOf`, `filter(...).length`
  counts, and grouping by a key.
- `Text` (`text.dfy`): JavaScript `trim` and the `!s.trim()` blank test.
- `Calendar` (`calendar.dfy`): month lengths, day numbers and weekdays, and
  month carry-over.
- `Reminders`, `Therapies`, `Medications` and `Home`: one module per screen.

The screens keep no store keyed by id. Every update and delete in the code
works by position in the list, and ids come from `Date.now()` with no
uniqueness guarantee. The model follows the code, so operations take an index
and id uniqueness is not assumed. The code also has no cross-screen "today"
aggregation. Only the reminders screen filters by today's date, and it
compares `toLocaleDateString()` strings. Non-deterministic or environment
inputs become parameters:

- ids (`Date.now()`);
- colours (`Math.random`);
- `new Date()`;
- `toLocaleDateString()`.

A JavaScript field that is missing or empty is the empty string here. Both are
falsy for `||`.

## Model

| member | source | states |
|---|---|---|
| Text.Trim | screens/RemindersScreen.js:83 | the trimmed string is never longer, and it is empty exactly when the input is white space only |
| Text.TrimSpec | screens/RemindersScreen.js:83 | trim keeps the infix between the leading and trailing white space, cuts only white space, and leaves none at either end |
| Text.TrimIdempotent | screens/RemindersScreen.js:83-88 | trimming an already trimmed field changes nothing |
| Seqs.Filter | screens/RemindersScreen.js:138-141 | filter keeps exactly the elements satisfying the test, and none from outside the list |
| Seqs.FilterAtPositions | screens/TherapyScreen.js:94-103 | a filtered view is the list read at the ascending positions that pass the test, so order is preserved |
| Seqs.RemoveAt | screens/TherapyScreen.js:89-92 | deleting by position drops exactly that element and shifts the later ones down; an index outside the list changes nothing |
| Seqs.IndexOf | screens/TherapyScreen.js:133-134 | indexOf gives the first position holding the value, and -1 exactly when the value is absent |
| Seqs.GroupBy | screens/TherapyScreen.js:105-111 | group k is the filter of the list by key equal to the k-th listed key |
| Seqs.GroupByTotal | screens/MedicationScreen.js:83-89 | with distinct keys, the group sizes add up to the number of elements whose key is listed, never more than the list |
| Calendar.IsLeapYear | screens/RemindersScreen.js:39-40 | the Gregorian leap rule the Date object applies: every fourth year, except centuries not divisible by 400 |
| Calendar.DaysInMonth | screens/RemindersScreen.js:39-40 | a month has 28 to 31 days |
| Calendar.LastDayRollover | screens/RemindersScreen.js:39-40 | day 0 of the next month, i.e. the day before its first, is the last day of this month, across a year end too |
| Calendar.MonthsSumToYear | screens/RemindersScreen.js:39-40 | the twelve month lengths add up to 365, or 366 in a Gregorian leap year |
| Calendar.YearLength | screens/RemindersScreen.js:39-40 | the closed day count before a year advances by that year's length under the leap-year rule |
| Calendar.Weekday | screens/RemindersScreen.js:38-41 | the weekday is in 0..6 |
| Calendar.WeekdayInMonth | screens/RemindersScreen.js:38-41 | day d of a month falls d-1 weekdays after its first |
| Calendar.NextMonthWeekday | screens/RemindersScreen.js:38-41 | the next month starts as many weekdays later as this month has days, modulo 7 |
| Calendar.EpochIsThursday | screens/RemindersScreen.js:38-41 | 1 January 1970 is a Thursday, anchoring the weekday numbering |
| Calendar.FourHundredYearCycle | screens/RemindersScreen.js:38-41 | 400 years on, the leap years repeat, 146097 days have passed, and every date has the same weekday |
| Calendar.FirstOfMonth | screens/RemindersScreen.js:66-72 | an out-of-range month carries into the year: the result is a valid month's first day with the same month index |
| Reminders.MonthGrid | screens/RemindersScreen.js:35-56 | the grid has as many blanks as the weekday of the first, followed by the days 1 up to the month's length and nothing after |
| Reminders.GetDaysInMonth | screens/RemindersScreen.js:35-56 | the two push loops build exactly that grid (a shown year 0..99 is not moved to the 1900s; see Left out) |
| Reminders.GridColumnIsWeekday | screens/RemindersScreen.js:35-56 | each day sits in the column of its own weekday, counting from Sunday |
| Reminders.GridDaysAscending | screens/RemindersScreen.js:51-53 | day numbers strictly increase along the grid and are all valid dates of the month |
| Reminders.LeapFebruary2024 | screens/RemindersScreen.js:35-56 | February 2024 starts on a Thursday and has 29 days, so its grid has 33 cells ending with 29 |
| Reminders.PreviousMonth | screens/RemindersScreen.js:66-68 | the result is the first of the previous month; January goes to December of the year before (a shown year 0..99 is not moved to the 1900s; see Left out) |
| Reminders.NextMonth | screens/RemindersScreen.js:70-72 | the result is the first of the next month; December goes to January of the year after (a shown year 0..99 is not moved to the 1900s; see Left out) |
| Reminders.PreviousYear | screens/RemindersScreen.js:74-76 | the result is the first of the same month, exactly twelve months back (a target year 0..99 is not moved to the 1900s; see Left out) |
| Reminders.NextYear | screens/RemindersScreen.js:78-80 | the result is the first of the same month, exactly twelve months on (a target year 0..99 is not moved to the 1900s; see Left out) |
| Reminders.MonthIndexInjective | screens/RemindersScreen.js:66-80 | two valid months with the same month index are the same year and month |
| Reminders.MonthNavigationRoundTrip | screens/RemindersScreen.js:66-72 | next then previous, and previous then next, both return to the first of the shown month |
| Reminders.AdvanceMonthsIndex | screens/RemindersScreen.js:70-72 | n presses of next month move the month index by exactly n |
| Reminders.TwelveMonthsMakeAYear | screens/RemindersScreen.js:70-80 | twelve presses of next month land where one press of next year does |
| Reminders.SelectDay | screens/RemindersScreen.js:123 | tapping a day selects that day of the shown month and year; tapping padding selects nothing new (a shown year 0..99 is not moved to the 1900s; see Left out) |
| Reminders.ConstructorYear | screens/RemindersScreen.js:66-72 | the Date constructor reads a year 0..99 as 1900..1999 and any other year as given |
| Reminders.PreviousMonthAsWritten | screens/RemindersScreen.js:67 | as written, the first of the month before the shown one, counted from the year the constructor reads |
| Reminders.NextMonthAsWritten | screens/RemindersScreen.js:71 | as written, the first of the month after the shown one, counted from the year the constructor reads |
| Reminders.PreviousYearAsWritten | screens/RemindersScreen.js:75 | as written, the first of the same month; a target year 0..99 lands in 1900..1999, any other equals the corrected previous year |
| Reminders.NextYearAsWritten | screens/RemindersScreen.js:79 | as written, the first of the same month; a target year 0..99 lands in 1900..1999, any other equals the corrected next year |
| Reminders.SelectDayInGrid | screens/RemindersScreen.js:123 | tapping any cell of the shown month's grid selects a valid date of that month and year, the tapped day for a day cell |
| Reminders.SelectDayAsWritten | screens/RemindersScreen.js:123 | as written, a tapped day while a year 0..99 is shown lands in 1900..1999; for any other year it equals the corrected selection |
| Reminders.AsWrittenAgreesOutsideTwoDigitYears | screens/RemindersScreen.js:66-80 | outside years -1..100 all four navigation handlers and the day tap as written equal the model's |
| Reminders.NavigationAsWrittenSkipsCenturies | screens/RemindersScreen.js:66-80 | as written, previous then next from January of year 100 lands in January 2000, previous year from year 100 lands in 1999, next year from year -1 lands in 1900, and a tap in year 50 lands in 1950 |
| Reminders.NewReminder | screens/RemindersScreen.js:84-93 | the new reminder has trimmed text and time, a trimmed title or "Recordatorio" when the title is blank, and is dated on the selected day |
| Reminders.AddReminder | screens/RemindersScreen.js:82-95 | blank text or time changes nothing; otherwise exactly the new reminder is appended after the unchanged list |
| Reminders.NewReminderWellFormed | screens/RemindersScreen.js:82-93 | a reminder that passes validation stores non-blank, already trimmed text and time and a non-blank title |
| Reminders.AddReminderPreservesWellFormed | screens/RemindersScreen.js:82-95 | adding keeps every stored reminder well formed |
| Reminders.DefaultTitleNotBlank | screens/RemindersScreen.js:88 | the default title is not blank |
| Reminders.TodayReminders | screens/RemindersScreen.js:138-141 | today's reminders are exactly the stored ones whose date string is today's, never more than the list |
| Reminders.TodayRemindersInOrder | screens/RemindersScreen.js:138-141 | today's list is the stored list read at exactly the positions dated today, in ascending order |
| Reminders.AddedTodayShowsLast | screens/RemindersScreen.js:82-95 | a reminder added for a day labelled as today grows today's list by one and shows last |
| Reminders.IsTodayCell | screens/RemindersScreen.js:103-106 | padding is never today, and a cell marked today names exactly the current date |
| Reminders.ExactlyOneTodayCell | screens/RemindersScreen.js:102-106 | padding is never today; in the current month exactly the cell of the current day is today, and in other months none is |
| Reminders.AnyOn | screens/RemindersScreen.js:108-113 | true exactly when some reminder is dated on that year, month and day |
| Reminders.HasReminder | screens/RemindersScreen.js:108-113 | padding is never marked; a day cell is marked exactly when some reminder falls on that day of the shown month and year |
| Reminders.AddedReminderMarksItsDay | screens/RemindersScreen.js:82-113 | after an add, the selected day of the shown month carries the reminder dot |
| Therapies.NewTherapy | screens/TherapyScreen.js:50-64 | the new session has trimmed text fields, the chosen status, duration, colour and category, and completed is true exactly when the status is Completada |
| Therapies.AddTherapy | screens/TherapyScreen.js:48-67 | a blank name or date changes nothing; otherwise exactly the new session is appended after the unchanged list |
| Therapies.AddThenDeleteRestores | screens/TherapyScreen.js:48-92 | deleting the session just added gives back the old list |
| Therapies.AddTherapyKeepsConsistent | screens/TherapyScreen.js:48-67 | adding keeps every completed flag in step with its status |
| Therapies.UpdateTherapyStatus | screens/TherapyScreen.js:78-87 | the length is kept and only position i changes; there only the status and completed change, to the new status and whether it is Completada |
| Therapies.DeleteTherapy | screens/TherapyScreen.js:89-92 | one fewer session, the removed one plus the rest make the old multiset, later ones shift down in order, and a bad index changes nothing; the upcoming and completed counts drop by one exactly when the removed session was in that view |
| Therapies.UpdateAndDeleteKeepConsistent | screens/TherapyScreen.js:78-92 | setting a status and deleting both keep every completed flag in step with its status |
| Therapies.ShownStatus | screens/TherapyScreen.js:130-141 | a missing status shows as Programada; any other shows as itself |
| Therapies.NextStatus | screens/TherapyScreen.js:132-135 | the badge cycles Programada, Completada, Cancelada, Reagendada; a missing status counts as Programada; an unknown one has indexOf -1 and goes to Programada |
| Therapies.StatusCycleHasPeriodFour | screens/TherapyScreen.js:132-135 | four presses bring every listed status back |
| Therapies.CycleStatus | screens/TherapyScreen.js:132-136 | a badge press sets position i to the next status, keeps completed consistent, keeps every other field of that session and changes no other session |
| Therapies.CycleFourTimesIsIdentity | screens/TherapyScreen.js:132-136 | four badge presses on a consistent session with a listed status give back the list |
| Therapies.Upcoming | screens/TherapyScreen.js:94-99 | the upcoming view holds exactly the sessions that are Programada or Reagendada |
| Therapies.CompletedTherapies | screens/TherapyScreen.js:101-103 | the completed view holds exactly the sessions that are Completada |
| Therapies.SummaryBound | screens/TherapyScreen.js:338-353 | Próximas plus Completadas never exceed Total |
| Therapies.ViewsInOrder | screens/TherapyScreen.js:94-103 | both views read the list at their matching positions in order |
| Therapies.ByStatus | screens/TherapyScreen.js:105-111 | group k holds exactly the sessions whose status is the k-th listed status |
| Therapies.ByStatusPartition | screens/TherapyScreen.js:105-111 | the groups are pairwise disjoint, their sizes add up to the sessions with a listed status, and never more than the list |
| Therapies.UpcomingPosition | screens/TherapyScreen.js:196 | indexOf of the k-th upcoming session is a position in the full list holding that session |
| Therapies.CompleteUpcoming | screens/TherapyScreen.js:196 | the check button keeps the list length and turns exactly the pressed upcoming session into a Completada, completed copy of itself, every other field and session kept |
| Therapies.CompleteUpcomingMovesOne | screens/TherapyScreen.js:196 | the check button completes exactly that session, keeping its other fields and every other session; upcoming shrinks by one and completed grows by one |
| Medications.NewMedication | screens/MedicationScreen.js:44-55 | the new record is active with trimmed disease, name, title and dosage, keeps the chosen frequency, colour and category as picked, and its title falls back to the trimmed medication name when blank |
| Medications.AddMedication | screens/MedicationScreen.js:42-58 | a blank disease or medication changes nothing; otherwise exactly the new record is appended after the unchanged list |
| Medications.NewMedicationWellFormed | screens/MedicationScreen.js:42-55 | a record that passes validation has a non-blank disease, name and title |
| Medications.AddMedicationIsActive | screens/MedicationScreen.js:42-58 | an accepted add raises the active count by one |
| Medications.ToggleMedicationStatus | screens/MedicationScreen.js:67-72 | the length is kept and active flips at position i only, with every other field kept |
| Medications.ToggleTwiceRestores | screens/MedicationScreen.js:67-72 | toggling the same position twice gives back the list |
| Medications.DeleteMedication | screens/MedicationScreen.js:74-77 | one fewer record, the removed one plus the rest make the old multiset, later ones shift down in order, and a bad index changes nothing; Activos drops by one exactly when the removed record was active |
| Medications.AddThenDeleteRestores | screens/MedicationScreen.js:42-77 | deleting the record just added gives back the old list |
| Medications.ActiveMedications | screens/MedicationScreen.js:79-81 | the active list holds exactly the active records of the list |
| Medications.PausedCount | screens/MedicationScreen.js:268-271 | Pausados is never negative |
| Medications.PausedCountIsPaused | screens/MedicationScreen.js:263-277 | Pausados counts exactly the paused records, so Activos plus Pausados equals Total |
| Medications.ToggleMovesBetweenCounts | screens/MedicationScreen.js:67-81 | a toggle moves one record between the active and the paused count |
| Medications.EffectiveCategory | screens/MedicationScreen.js:86-87 | a record without a category is grouped as Medicamento; one with a category keeps it |
| Medications.ByCategory | screens/MedicationScreen.js:83-89 | group k holds exactly the records of the k-th category, with uncategorised records in Medicamento |
| Medications.ByCategoryPartition | screens/MedicationScreen.js:83-89 | every record is in at most one category group, and the groups never hold more than the list |
| Medications.PauseAsWrittenHitsWrongRecord | screens/MedicationScreen.js:146-159 | as written, pausing the first active record when a paused record precedes it re-activates the paused one instead |
| Medications.ActivePosition | screens/MedicationScreen.js:290-295 | the k-th active record is at a position of the full list holding that record, which is active |
| Medications.PauseFromActiveListAsWritten | screens/MedicationScreen.js:159 | as written, the pressed active-list position k flips the record at position k of the full list |
| Medications.PauseFromActiveList | screens/MedicationScreen.js:146-159 | the pause button addressed to the record the pressed item came from; the list keeps its length |
| Medications.PauseFromActiveListPausesIt | screens/MedicationScreen.js:146-159 | pausing through the active-list position pauses exactly that record, and the active list shrinks by one |
| Home.ApplyEdit | screens/HomeScreen.js:262-346 | no form input changes the form's status |
| Home.EditsKeepStatus | screens/HomeScreen.js:262-346 | after any run of form edits the status is still the one the form started with |
| Home.AddLegacy | screens/HomeScreen.js:47-51 | blank input changes nothing; otherwise the raw, untrimmed input is appended as a legacy item after the unchanged list |
| Home.NewRecord | screens/HomeScreen.js:60-65 | the record carries every form field as entered, plus the given id, creation time and colour |
| Home.AddEnhancedTherapy | screens/HomeScreen.js:54-69 | a blank name changes nothing; otherwise exactly the new record is appended after the unchanged list |
| Home.EnhancedTherapyIsScheduled | screens/HomeScreen.js:30-83 | a record added from the form is Programada |
| Home.DeleteItem | screens/HomeScreen.js:95-112 | one fewer item, the removed one plus the rest make the old multiset, later ones shift down in order, and a bad index changes nothing; Programadas and Completadas drop by one exactly when the removed item counted there |
| Home.AddThenDeleteRestores | screens/HomeScreen.js:105 | deleting the legacy item just added gives back the old list |
| Home.NextStatus | screens/HomeScreen.js:115-122 | Programada, En Progreso, Completada, Cancelada in a cycle; an unknown status goes to Programada |
| Home.ToggleStatus | screens/HomeScreen.js:114-126 | a record at i moves to the next status with its other fields kept; a legacy item or a missing index leaves the list unchanged; no other position changes |
| Home.ToggleFourTimesIsIdentity | screens/HomeScreen.js:114-126 | four toggles give back the list whenever the toggled record has a listed status |
| Home.OperationsKeepValid | screens/HomeScreen.js:47-126 | both adds, delete and toggle keep legacy items non-blank and records named and with a listed status |
| Home.DeleteKeepsValid | screens/HomeScreen.js:105 | deleting keeps every remaining item valid |
| Home.ToggleKeepsValid | screens/HomeScreen.js:114-126 | toggling keeps every item valid: a record keeps its name and gets a listed status |
| Home.Scheduled | screens/HomeScreen.js:167 | Programadas never exceeds the list, and is zero exactly when no item counts as scheduled |
| Home.Completed | screens/HomeScreen.js:168 | Completadas never exceeds the list, and is zero exactly when no record is Completada |
| Home.StatsBound | screens/HomeScreen.js:166-190 | Programadas plus Completadas never exceed Total |
| Home.AddLegacyCountsAsScheduled | screens/HomeScreen.js:166-168 | a legacy item counts as Programada: adding one raises Programadas by one and leaves Completadas |
| Home.AddEnhancedCountsAsScheduled | screens/HomeScreen.js:166-168 | a record added from the form raises Programadas by one and leaves Completadas |

## Left out

- Rendering, modals, styles, list plumbing and the `Alert` dialogs. A delete is modelled as confirmed.
- Emergency dialling through `Linking.openURL` in screens/HomeScreen.js:139-163. It calls a foreign capability.
- The chat screen. It is a network call with timers.
- The app shell, dashboard, settings, login and health screens and the presentational components. They only pass data through or duplicate the legacy append.
- `Date.now()` ids, `Math.random` colours, `new Date()` and `toLocaleDateString()`. They are nondeterministic or locale-dependent, so they are parameters: `id`, `color`, `createdAt`, `today`, `now` and `toLabel`.
- JavaScript `Date` range limits and time of day. A date is a year, a zero-based month and a day, on unbounded integers.
- Reminders.MonthGrid: uses corrected proleptic arithmetic. It omits the Date constructor's reading of years 0..99 as 1900..1999, which shows only in a calendar that has been navigated back below year 100 (see Findings).
- Reminders.GetDaysInMonth: draws the proleptic month for a shown year 0..99, while `new Date(year, month, 1)` and `new Date(year, month + 1, 0)` read it as 1900..1999. December 99, reachable from January 100 by one press of previous month, is drawn as December 1999 in the source, which starts on a Wednesday.
- Reminders.PreviousMonth: does not read a shown year 0..99 as 1900..1999 the way `new Date(year, month - 1, 1)` does, so from December 99 the source goes to November 1999, not November 99. Reminders.PreviousMonthAsWritten models that reading (see Findings).
- Reminders.NextMonth: does not read a shown year 0..99 as 1900..1999 the way `new Date(year, month + 1, 1)` does, so from December 99 the source goes to January 2000, not January 100. Reminders.NextMonthAsWritten models that reading (see Findings).
- Reminders.PreviousYear: does not read a target year 0..99 as 1900..1999 the way `new Date(year - 1, month, 1)` does, so from year 100 the source goes to 1999, not 99. Reminders.PreviousYearAsWritten models that reading (see Findings).
- Reminders.NextYear: does not read a target year 0..99 as 1900..1999 the way `new Date(year + 1, month, 1)` does, so from year -1 the source goes to 1900, not 0. Reminders.NextYearAsWritten models that reading (see Findings).
- Reminders.SelectDay: does not read a shown year 0..99 as 1900..1999 the way `new Date(year, month, day)` does, so a tap while year 50 is shown selects a day of 1950 in the source. Reminders.SelectDayAsWritten models that reading.
- Reminders.HasReminder: assumes every reminder carries `fullDate`. The code falls back to parsing `reminder.date` when `fullDate` is missing, which an add never produces, and parsing a locale string is not modelled.
- Therapies.UpcomingPosition: `therapies.indexOf(item)` compares object references. It is modelled as the position the upcoming item was filtered from, which is what reference identity yields.
- Home.ToggleStatus: the code mutates the shared record object in place before setting the list. It is modelled as a new list with a new record, which is the state the screen then shows.
- `handleItemPress` and the detail view's copy of the selected item (screens/HomeScreen.js:90-93): display state, not modelled.

## Findings

| source | as written | input that shows it | evidently intended | confidence | as-written member | corrected member |
|---|---|---|---|---|---|---|
| screens/MedicationScreen.js:146-159 | the pause button of the "Medicamentos de hoy" list passes the item's index within the active list to `toggleMedicationStatus`, which indexes the full list | a paused record followed by an active one: pausing the active one re-activates the paused one and leaves the active one running | toggle the record the pressed item came from | high, not executed | Medications.PauseAsWrittenHitsWrongRecord | Medications.PauseFromActiveListPausesIt |
| screens/RemindersScreen.js:66-80 | month and year navigation rebuild the date with `new Date(year, month ± 1, 1)` and `new Date(year ± 1, month, 1)`, and the Date constructor reads a year 0..99 as 1900..1999 | January of year 100: previous month gives December 99, then next month gives January 2000; previous year gives January 1999 | previous then next returns to the month shown | low, not executed | Reminders.NavigationAsWrittenSkipsCenturies | Reminders.MonthNavigationRoundTrip |

=== FILE: calendar.dfy ===
/** Proleptic Gregorian calendar arithmetic behind the reminders calendar: the
    month lengths and weekdays JavaScript's `Date` produces, and the month
    normalisation `new Date(year, month, day)` performs. Months are zero-based
    (January = 0) and weekdays run Sunday = 0 .. Saturday = 6, as `getMonth()`
    and `getDay()` report them. */
module Calendar {

  /** A calendar day as `getFullYear()`, `getMonth()`, `getDate()` report it. */
  datatype Date = Date(year: int, month: int, day: int)

  predicate ValidMonth(m: int) {
    0 <= m < 12
  }

  predicate IsLeapYear(y: int) {
    y % 4 == 0 && (y % 100 != 0 || y % 400 == 0)
  }

  function DaysInYear(y: int): int {
    if IsLeapYear(y) then 366 else 365
  }

  /** The day of month of `new Date(y, m + 1, 0)`, the last day of month `m`. */
  function DaysInMonth(y: int, m: int): (n: int)
    requires ValidMonth(m)
    ensures 28 <= n <= 31
  {
    if m == 1 then (if IsLeapYear(y) then 29 else 28)
    else if m == 3 || m == 5 || m == 8 || m == 10 then 30
    else 31
  }

  predicate ValidDate(d: Date) {
    ValidMonth(d.month) && 1 <= d.day <= DaysInMonth(d.year, d.month)
  }

  /** Days from 1 January of year 1 to 1 January of year `y`; `/` on a positive
      divisor floors, so this holds for years before 1 as well. */
  function DaysBeforeYear(y: int): int {
    365 * (y - 1) + (y - 1) / 4 - (y - 1) / 100 + (y - 1) / 400
  }

  /** Days from 1 January to the first of month `m` of year `y`. */
  function DaysBeforeMonth(y: int, m: int): int
    requires 0 <= m <= 12
  {
    if m == 0 then 0 else DaysBeforeMonth(y, m - 1) + DaysInMonth(y, m - 1)
  }

  /** Consecutive numbering of days; 1 January of year 1 is day 0. */
  function DayNumber(d: Date): int
    requires ValidMonth(d.month)
  {
    DaysBeforeYear(d.year) + DaysBeforeMonth(d.year, d.month) + d.day - 1
  }

  /** `getDay()`: 1 January of year 1 (proleptic Gregorian) was a Monday. */
  function Weekday(d: Date): (w: int)
    requires ValidMonth(d.month)
    ensures 0 <= w < 7
  {
    (DayNumber(d) + 1) % 7
  }

  /** Months counted from January of year 0, the quantity month arithmetic moves. */
  function MonthIndex(y: int, m: int): int {
    12 * y + m
  }

  /** `new Date(y, m, 1)` for any integer `m`: the month carries into the year. */
  function FirstOfMonth(y: int, m: int): (d: Date)
    ensures ValidMonth(d.month) && d.day == 1
    ensures MonthIndex(d.year, d.month) == MonthIndex(y, m)
  {
    Date(y + m / 12, m % 12, 1)
  }

  /** The twelve month lengths add up to the length of the year. */
  lemma MonthsSumToYear(y: int)
    ensures DaysBeforeMonth(y, 12) == DaysInYear(y)
  {
    var feb := DaysInMonth(y, 1);
    assert DaysBeforeMonth(y, 1) == 31;
    assert DaysBeforeMonth(y, 2) == 31 + feb;
    assert DaysBeforeMonth(y, 3) == 62 + feb;
    assert DaysBeforeMonth(y, 4) == 92 + feb;
    assert DaysBeforeMonth(y, 5) == 123 + feb;
    assert DaysBeforeMonth(y, 6) == 153 + feb;
    assert DaysBeforeMonth(y, 7) == 184 + feb;
    assert DaysBeforeMonth(y, 8) == 215 + feb;
    assert DaysBeforeMonth(y, 9) == 245 + feb;
    assert DaysBeforeMonth(y, 10) == 276 + feb;
    assert DaysBeforeMonth(y, 11) == 306 + feb;
    assert DaysBeforeMonth(y, 12) == 337 + feb;
  }

  lemma DivStep4(y: int)
    ensures y / 4 - (y - 1) / 4 == (if y % 4 == 0 then 1 else 0)
  {
  }

  lemma DivStep100(y: int)
    ensures y / 100 - (y - 1) / 100 == (if y % 100 == 0 then 1 else 0)
  {
  }

  lemma DivStep400(y: int)
    ensures y / 400 - (y - 1) / 400 == (if y % 400 == 0 then 1 else 0)
  {
  }

  /** A year has `DaysInYear` days: the Gregorian leap rule and the closed form agree. */
  lemma YearLength(y: int)
    ensures DaysBeforeYear(y + 1) == DaysBeforeYear(y) + DaysInYear(y)
  {
    DivStep4(y);
    DivStep100(y);
    DivStep400(y);
  }

  /** The `new Date(y, m + 1, 0)` rollover: the day before the first of the next
      month is the last day of this month, `DaysInMonth(y, m)`. */
  lemma LastDayRollover(y: int, m: int)
    requires ValidMonth(m)
    ensures DayNumber(FirstOfMonth(y, m + 1)) == DayNumber(Date(y, m, DaysInMonth(y, m))) + 1
  {
    if m == 11 {
      YearLength(y);
      MonthsSumToYear(y);
    }
  }

  /** The first of the next month falls `DaysInMonth` weekdays later. */
  lemma NextMonthWeekday(y: int, m: int)
    requires ValidMonth(m)
    ensures Weekday(FirstOfMonth(y, m + 1)) == (Weekday(Date(y, m, 1)) + DaysInMonth(y, m)) % 7
  {
    LastDayRollover(y, m);
    var n := DayNumber(Date(y, m, 1));
    assert DayNumber(FirstOfMonth(y, m + 1)) == n + DaysInMonth(y, m);
    WeekShift(n + 1, DaysInMonth(y, m));
  }

  lemma WeekShift(a: int, b: int)
    ensures (a + b) % 7 == (a % 7 + b) % 7
  {
    assert a + b == a % 7 + b + 7 * (a / 7);
  }

  /** Within a month, day `d` falls `d - 1` weekdays after the first. */
  lemma WeekdayInMonth(y: int, m: int, d: int)
    requires ValidMonth(m)
    ensures Weekday(Date(y, m, d)) == (Weekday(Date(y, m, 1)) + d - 1) % 7
  {
  }

  /** 1 January 1970, the epoch of JavaScript's clock, was a Thursday. */
  lemma EpochIsThursday()
    ensures Weekday(Date(1970, 0, 1)) == 4
  {
  }

  /** The Gregorian calendar repeats every 400 years: same leap years, and
      146097 days, a whole number of weeks, so every date has the same weekday. */
  lemma FourHundredYearCycle(y: int, m: int, d: int)
    requires ValidMonth(m)
    ensures IsLeapYear(y + 400) == IsLeapYear(y)
    ensures DaysBeforeYear(y + 400) == DaysBeforeYear(y) + 146097
    ensures Weekday(Date(y + 400, m, d)) == Weekday(Date(y, m, d))
  {
    LeapCycle(y);
    assert (y + 399) / 4 == (y - 1) / 4 + 100;
    assert (y + 399) / 100 == (y - 1) / 100 + 4;
    assert (y + 399) / 400 == (y - 1) / 400 + 1;
    SameMonthsFourHundredYearsOn(y, m);
    var n := DayNumber(Date(y, m, d));
    assert DayNumber(Date(y + 400, m, d)) == n + 7 * 20871;
    assert (n + 7 * 20871 + 1) % 7 == (n + 1) % 7;
  }

  lemma {:induction false} SameMonthsFourHundredYearsOn(y: int, m: int)
    requires 0 <= m <= 12
    ensures DaysBeforeMonth(y + 400, m) == DaysBeforeMonth(y, m)
  {
    if m > 0 {
      SameMonthsFourHundredYearsOn(y, m - 1);
      LeapCycle(y);
    }
  }

  lemma LeapCycle(y: int)
    ensures IsLeapYear(y + 400) == IsLeapYear(y)
  {
    assert (y + 400) % 4 == y % 4;
    assert (y + 400) % 100 == y % 100;
    assert (y + 400) % 400 == y % 400;
  }
}

=== FILE: home.dfy ===
/** The home screen's therapy list: a list mixing legacy plain-string items with
    structured records, the two add paths, deletion by position, the status
    toggle, and the counts of the stats panel. The id (`Date.now()`), the
    creation time and the random colour are parameters. */
module Home {
  import opened Seqs
  import opened Text

  const Programada: string := "Programada"
  const EnProgreso: string := "En Progreso"
  const Completada: string := "Completada"
  const Cancelada: string := "Cancelada"

  /** The statuses `toggleStatus` cycles through, in order. */
  const Statuses: seq<string> := [Programada, EnProgreso, Completada, Cancelada]

  /** A structured therapy of the home list. */
  datatype Record = Record(
    id: string, name: string, date: string, time: string, location: string,
    therapist: string, notes: string, category: string, status: string,
    createdAt: string, color: string)

  /** An item of the list: a legacy string, or a record. */
  datatype Item = Legacy(text: string) | Rec(rec: Record)

  /** The `therapyDetails` form state. */
  datatype Details = Details(
    name: string, date: string, time: string, location: string,
    therapist: string, notes: string, category: string, status: string)

  /** The form's initial and reset state. */
  const InitialDetails: Details := Details("", "", "", "", "", "", "Fisioterapia", Programada)

  /** The edits the form's inputs make to `therapyDetails`; none touches the status. */
  datatype Edit =
    | SetName(v: string) | SetDate(v: string) | SetTime(v: string) | SetLocation(v: string)
    | SetTherapist(v: string) | SetNotes(v: string) | SetCategory(v: string)

  function ApplyEdit(d: Details, e: Edit): (r: Details)
    ensures r.status == d.status
  {
    match e
    case SetName(v) => d.(name := v)
    case SetDate(v) => d.(date := v)
    case SetTime(v) => d.(time := v)
    case SetLocation(v) => d.(location := v)
    case SetTherapist(v) => d.(therapist := v)
    case SetNotes(v) => d.(notes := v)
    case SetCategory(v) => d.(category := v)
  }

  /** The form state after a run of edits from `d`. */
  function ApplyEdits(d: Details, es: seq<Edit>): Details
    decreases |es|
  {
    if |es| == 0 then d else ApplyEdits(ApplyEdit(d, es[0]), es[1..])
  }

  /** Whatever is typed, the form's status stays what it started as: a form filled
      in from the initial state always submits "Programada". */
  lemma {:induction false} EditsKeepStatus(d: Details, es: seq<Edit>)
    ensures ApplyEdits(d, es).status == d.status
    decreases |es|
  {
    if |es| > 0 {
      EditsKeepStatus(ApplyEdit(d, es[0]), es[1..]);
    }
  }

  /** The original `addTherapy`: blank input changes nothing; otherwise the input,
      untrimmed, is appended as a legacy item. */
  function AddLegacy(list: seq<Item>, therapy: string): (r: seq<Item>)
    ensures IsBlank(therapy) ==> r == list
    ensures !IsBlank(therapy) ==> |r| == |list| + 1 && r[..|list|] == list && r[|list|] == Legacy(therapy)
  {
    if IsBlank(therapy) then list else list + [Legacy(therapy)]
  }

  /** The record `addEnhancedTherapy` builds: the form's fields as entered (the name
      is not trimmed), plus id, creation time and colour. */
  function NewRecord(d: Details, id: string, createdAt: string, color: string): (r: Record)
    ensures r.name == d.name && r.status == d.status && r.category == d.category
    ensures r.date == d.date && r.time == d.time && r.location == d.location
    ensures r.therapist == d.therapist && r.notes == d.notes
    ensures r.id == id && r.createdAt == createdAt && r.color == color
  {
    Record(id, d.name, d.date, d.time, d.location, d.therapist, d.notes, d.category,
           d.status, createdAt, color)
  }

  /** `addEnhancedTherapy`: a blank name changes nothing (the screen shows an
      alert); otherwise the record is appended after the unchanged list. */
  function AddEnhancedTherapy(list: seq<Item>, d: Details, id: string, createdAt: string, color: string): (r: seq<Item>)
    ensures IsBlank(d.name) ==> r == list
    ensures !IsBlank(d.name) ==>
      |r| == |list| + 1 && r[..|list|] == list && r[|list|] == Rec(NewRecord(d, id, createdAt, color))
  {
    if IsBlank(d.name) then list else list + [Rec(NewRecord(d, id, createdAt, color))]
  }

  /** A record added through the form is "Programada". */
  lemma EnhancedTherapyIsScheduled(list: seq<Item>, es: seq<Edit>, id: string, createdAt: string, color: string)
    requires !IsBlank(ApplyEdits(InitialDetails, es).name)
    ensures AddEnhancedTherapy(list, ApplyEdits(InitialDetails, es), id, createdAt, color)[|list|].rec.status == Programada
  {
    EditsKeepStatus(InitialDetails, es);
  }

  /** `deleteItem(index)` once confirmed: the item at `index` goes, the rest stay in order. */
  function DeleteItem(list: seq<Item>, i: int): (r: seq<Item>)
    ensures 0 <= i < |list| ==> |r| == |list| - 1 && multiset(r) + multiset{list[i]} == multiset(list)
    ensures 0 <= i < |list| ==> forall j :: 0 <= j < |r| ==> r[j] == list[if j < i then j else j + 1]
    ensures !(0 <= i < |list|) ==> r == list
    ensures 0 <= i < |list| ==> Scheduled(r) + (if CountsAsScheduled(list[i]) then 1 else 0) == Scheduled(list)
    ensures 0 <= i < |list| ==> Completed(r) + (if CountsAsCompleted(list[i]) then 1 else 0) == Completed(list)
  {
    if 0 <= i < |list| then
      RemoveAtMultiset(list, i);
      CountRemoveAt(list, i, CountsAsScheduled);
      CountRemoveAt(list, i, CountsAsCompleted);
      RemoveAt(list, i)
    else list
  }

  /** Deleting the item just added restores the list. */
  lemma AddThenDeleteRestores(list: seq<Item>, therapy: string)
    requires !IsBlank(therapy)
    ensures DeleteItem(AddLegacy(list, therapy), |list|) == list
  {
    RemoveAppended(list, Legacy(therapy));
  }

  /** `statuses[(statuses.indexOf(status) + 1) % 4]`: an unknown status has index
      -1 and so moves to "Programada". */
  function NextStatus(s: string): (r: string)
    ensures r in Statuses
    ensures s == Programada ==> r == EnProgreso
    ensures s == EnProgreso ==> r == Completada
    ensures s == Completada ==> r == Cancelada
    ensures s == Cancelada ==> r == Programada
    ensures s !in Statuses ==> r == Programada
  {
    Statuses[(IndexOf(Statuses, s) + 1) % |Statuses|]
  }

  /** `toggleStatus(index)`: a record at `index` moves to the next status; a legacy
      item, or an index with no item, leaves the list unchanged. */
  function ToggleStatus(list: seq<Item>, i: int): (r: seq<Item>)
    ensures |r| == |list|
    ensures forall j :: 0 <= j < |list| && j != i ==> r[j] == list[j]
    ensures 0 <= i < |list| && list[i].Legacy? ==> r == list
    ensures 0 <= i < |list| && list[i].Rec? ==>
      && r[i].Rec? && r[i].rec.status == NextStatus(list[i].rec.status)
      && r[i].rec.(status := list[i].rec.status) == list[i].rec
  {
    if 0 <= i < |list| && list[i].Rec? then
      list[i := Rec(list[i].rec.(status := NextStatus(list[i].rec.status)))]
    else list
  }

  /** Four toggles bring a record with a listed status back. */
  lemma ToggleFourTimesIsIdentity(list: seq<Item>, i: int)
    requires 0 <= i < |list| && list[i].Rec? ==> list[i].rec.status in Statuses
    ensures ToggleStatus(ToggleStatus(ToggleStatus(ToggleStatus(list, i), i), i), i) == list
  {
    var r := ToggleStatus(ToggleStatus(ToggleStatus(ToggleStatus(list, i), i), i), i);
    if 0 <= i < |list| && list[i].Rec? {
      assert r[i] == list[i];
    }
  }

  /** What every item of the list satisfies: a legacy item is not blank; a record
      has a name that is not blank and one of the listed statuses. */
  predicate ValidItem(x: Item) {
    match x
    case Legacy(t) => !IsBlank(t)
    case Rec(r) => !IsBlank(r.name) && r.status in Statuses
  }

  predicate AllValid(list: seq<Item>) {
    forall i :: 0 <= i < |list| ==> ValidItem(list[i])
  }

  /** Every operation of the screen keeps every item valid, as long as records are
      added from the form's state. */
  lemma OperationsKeepValid(list: seq<Item>, therapy: string, es: seq<Edit>,
                            id: string, createdAt: string, color: string, i: int)
    requires AllValid(list)
    ensures AllValid(AddLegacy(list, therapy))
    ensures AllValid(AddEnhancedTherapy(list, ApplyEdits(InitialDetails, es), id, createdAt, color))
    ensures AllValid(DeleteItem(list, i))
    ensures AllValid(ToggleStatus(list, i))
  {
    EditsKeepStatus(InitialDetails, es);
    AppendValid(list, Legacy(therapy));
    var d := ApplyEdits(InitialDetails, es);
    AppendValid(list, Rec(NewRecord(d, id, createdAt, color)));
    DeleteKeepsValid(list, i);
    ToggleKeepsValid(list, i);
  }

  lemma DeleteKeepsValid(list: seq<Item>, i: int)
    requires AllValid(list)
    ensures AllValid(DeleteItem(list, i))
  {
    var r := DeleteItem(list, i);
    forall j | 0 <= j < |r|
      ensures ValidItem(r[j])
    {
      if 0 <= i < |list| {
        assert r[j] == list[if j < i then j else j + 1];
      }
    }
  }

  lemma ToggleKeepsValid(list: seq<Item>, i: int)
    requires AllValid(list)
    ensures AllValid(ToggleStatus(list, i))
  {
    var r := ToggleStatus(list, i);
    forall j | 0 <= j < |r|
      ensures ValidItem(r[j])
    {
      if j == i && list[i].Rec? {
        assert r[i].rec.name == list[i].rec.name;
      }
    }
  }

  lemma AppendValid(list: seq<Item>, x: Item)
    requires AllValid(list)
    ensures ValidItem(x) ==> AllValid(list + [x])
  {
    if ValidItem(x) {
      forall j | 0 <= j < |list + [x]|
        ensures ValidItem((list + [x])[j])
      {
        if j < |list| {
          assert (list + [x])[j] == list[j];
        }
      }
    }
  }

  /** The "Programadas" test: a legacy string counts as scheduled. */
  predicate CountsAsScheduled(x: Item) {
    x.Legacy? || x.rec.status == Programada
  }

  /** The "Completadas" test: only a record can be completed. */
  predicate CountsAsCompleted(x: Item) {
    x.Rec? && x.rec.status == Completada
  }

  /** The stats panel's "Programadas". */
  function Scheduled(list: seq<Item>): (n: nat)
    ensures n <= |list|
    ensures n == 0 <==> forall i :: 0 <= i < |list| ==> !CountsAsScheduled(list[i])
  {
    assert |Filter(list, CountsAsScheduled)| > 0 ==> Filter(list, CountsAsScheduled)[0] in list;
    Count(list, CountsAsScheduled)
  }

  /** The stats panel's "Completadas". */
  function Completed(list: seq<Item>): (n: nat)
    ensures n <= |list|
    ensures n == 0 <==> forall i :: 0 <= i < |list| ==> !CountsAsCompleted(list[i])
  {
    assert |Filter(list, CountsAsCompleted)| > 0 ==> Filter(list, CountsAsCompleted)[0] in list;
    Count(list, CountsAsCompleted)
  }

  /** "Programadas" and "Completadas" never add up past "Total". */
  lemma StatsBound(list: seq<Item>)
    ensures Scheduled(list) + Completed(list) <= |list|
  {
    var either := (x: Item) => CountsAsScheduled(x) || CountsAsCompleted(x);
    CountDisjointUnion(list, CountsAsScheduled, CountsAsCompleted, either);
  }

  /** Adding a legacy item raises "Programadas" by one and leaves "Completadas". */
  lemma AddLegacyCountsAsScheduled(list: seq<Item>, therapy: string)
    requires !IsBlank(therapy)
    ensures Scheduled(AddLegacy(list, therapy)) == Scheduled(list) + 1
    ensures Completed(AddLegacy(list, therapy)) == Completed(list)
  {
    assert AddLegacy(list, therapy) == list + [Legacy(therapy)];
    CountAppend(list, Legacy(therapy), CountsAsScheduled);
    CountAppend(list, Legacy(therapy), CountsAsCompleted);
  }

  /** A record added through the form raises "Programadas" by one and leaves "Completadas". */
  lemma AddEnhancedCountsAsScheduled(list: seq<Item>, es: seq<Edit>, id: string, createdAt: string, color: string)
    requires !IsBlank(ApplyEdits(InitialDetails, es).name)
    ensures var r := AddEnhancedTherapy(list, ApplyEdits(InitialDetails, es), id, createdAt, color);
      Scheduled(r) == Scheduled(list) + 1 && Completed(r) == Completed(list)
  {
    var d := ApplyEdits(InitialDetails, es);
    EditsKeepStatus(InitialDetails, es);
    var x := Rec(NewRecord(d, id, createdAt, color));
    assert AddEnhancedTherapy(list, d, id, createdAt, color) == list + [x];
    CountAppend(list, x, CountsAsScheduled);
    CountAppend(list, x, CountsAsCompleted);
  }
}

=== FILE: medications.dfy ===
/** The medication screen: adding a medication, toggling it active / paused,
    deleting by position, the active list with the active / paused / total
    summary, and grouping by category. The id (`Date.now()`) and today's date
    string are parameters. A missing category is the empty string. */
module Medications {
  import opened Seqs
  import opened Text

  /** The screen's `categories`; the first is where uncategorised records go. */
  const Categories: seq<string> := ["Medicamento", "Vitamina", "Suplemento", "Tratamiento", "Emergencia"]

  /** A stored medication; `name` is the medication entered, `title` what the card shows. */
  datatype Medication = Medication(
    id: string, disease: string, name: string, title: string, dosage: string,
    frequency: string, color: string, category: string, dateAdded: string, active: bool)

  /** The add form's inputs and selectors. */
  datatype MedicationForm = MedicationForm(
    disease: string, medication: string, title: string, dosage: string,
    frequency: string, color: string, category: string)

  /** What every medication `AddMedication` stores satisfies. */
  predicate WellFormed(m: Medication) {
    !IsBlank(m.disease) && !IsBlank(m.name) && !IsBlank(m.title)
  }

  /** The record `addMedication` builds: trimmed fields, the title defaulting to the
      trimmed medication name, active from the start. */
  function NewMedication(form: MedicationForm, id: string, today: string): (m: Medication)
    ensures m.active
    ensures m.disease == Trim(form.disease) && m.name == Trim(form.medication)
    ensures IsBlank(form.title) ==> m.title == Trim(form.medication)
    ensures !IsBlank(form.title) ==> m.title == Trim(form.title)
    ensures m.dosage == Trim(form.dosage) && m.frequency == form.frequency
    ensures m.category == form.category && m.dateAdded == today && m.id == id
    ensures m.color == form.color
  {
    var title := if IsBlank(form.title) then Trim(form.medication) else Trim(form.title);
    Medication(id, Trim(form.disease), Trim(form.medication), title, Trim(form.dosage),
               form.frequency, form.color, form.category, today, true)
  }

  /** `addMedication`: a no-op when the disease or the medication is blank;
      otherwise the new record is appended after the unchanged list. */
  function AddMedication(ms: seq<Medication>, form: MedicationForm, id: string, today: string): (r: seq<Medication>)
    ensures IsBlank(form.disease) || IsBlank(form.medication) ==> r == ms
    ensures !IsBlank(form.disease) && !IsBlank(form.medication) ==>
      |r| == |ms| + 1 && r[..|ms|] == ms && r[|ms|] == NewMedication(form, id, today)
  {
    if IsBlank(form.disease) || IsBlank(form.medication) then ms
    else ms + [NewMedication(form, id, today)]
  }

  /** A record built from a form that passes validation is well formed. */
  lemma NewMedicationWellFormed(form: MedicationForm, id: string, today: string)
    requires !IsBlank(form.disease) && !IsBlank(form.medication)
    ensures WellFormed(NewMedication(form, id, today))
  {
    TrimIdempotent(form.disease);
    TrimIdempotent(form.medication);
    TrimIdempotent(form.title);
  }

  /** Adding raises the active count by one. */
  lemma AddMedicationIsActive(ms: seq<Medication>, form: MedicationForm, id: string, today: string)
    requires !IsBlank(form.disease) && !IsBlank(form.medication)
    ensures |ActiveMedications(AddMedication(ms, form, id, today))| == |ActiveMedications(ms)| + 1
  {
    CountAppend(ms, NewMedication(form, id, today), IsActive);
    assert AddMedication(ms, form, id, today) == ms + [NewMedication(form, id, today)];
  }

  /** `toggleMedicationStatus(index)`: flips `active` at position `i` and nowhere else. */
  function ToggleMedicationStatus(ms: seq<Medication>, i: int): (r: seq<Medication>)
    ensures |r| == |ms|
    ensures forall j :: 0 <= j < |ms| && j != i ==> r[j] == ms[j]
    ensures 0 <= i < |ms| ==> r[i].active == !ms[i].active && r[i].(active := ms[i].active) == ms[i]
  {
    if 0 <= i < |ms| then ms[i := ms[i].(active := !ms[i].active)] else ms
  }

  /** Toggling the same position twice restores the list. */
  lemma ToggleTwiceRestores(ms: seq<Medication>, i: int)
    ensures ToggleMedicationStatus(ToggleMedicationStatus(ms, i), i) == ms
  {
  }

  /** `deleteMedication(index)`. */
  function DeleteMedication(ms: seq<Medication>, i: int): (r: seq<Medication>)
    ensures 0 <= i < |ms| ==> |r| == |ms| - 1 && multiset(r) + multiset{ms[i]} == multiset(ms)
    ensures 0 <= i < |ms| ==> forall j :: 0 <= j < |r| ==> r[j] == ms[if j < i then j else j + 1]
    ensures !(0 <= i < |ms|) ==> r == ms
    ensures 0 <= i < |ms| ==> |ActiveMedications(r)| + (if ms[i].active then 1 else 0) == |ActiveMedications(ms)|
  {
    if 0 <= i < |ms| then
      RemoveAtMultiset(ms, i);
      CountRemoveAt(ms, i, IsActive);
      RemoveAt(ms, i)
    else ms
  }

  /** Deleting the record just added restores the list. */
  lemma AddThenDeleteRestores(ms: seq<Medication>, form: MedicationForm, id: string, today: string)
    requires !IsBlank(form.disease) && !IsBlank(form.medication)
    ensures DeleteMedication(AddMedication(ms, form, id, today), |ms|) == ms
  {
    RemoveAppended(ms, NewMedication(form, id, today));
  }

  predicate IsActive(m: Medication) {
    m.active
  }

  predicate IsPaused(m: Medication) {
    !m.active
  }

  /** `getActiveMedications`: the active records, in list order. */
  function ActiveMedications(ms: seq<Medication>): (r: seq<Medication>)
    ensures forall x :: x in r ==> x in ms && x.active
    ensures forall i :: 0 <= i < |ms| && ms[i].active ==> ms[i] in r
  {
    Filter(ms, IsActive)
  }

  /** The summary's "Pausados": `medications.length - getActiveMedications().length`. */
  function PausedCount(ms: seq<Medication>): (n: int)
    ensures n >= 0
  {
    |ms| - |ActiveMedications(ms)|
  }

  /** "Pausados" counts exactly the paused records, so active + paused = total. */
  lemma PausedCountIsPaused(ms: seq<Medication>)
    ensures PausedCount(ms) == Count(ms, IsPaused)
    ensures |ActiveMedications(ms)| + PausedCount(ms) == |ms|
  {
    CountComplement(ms, IsActive, IsPaused);
  }

  /** Toggling a record moves it between the active and the paused count. */
  lemma ToggleMovesBetweenCounts(ms: seq<Medication>, i: int)
    requires 0 <= i < |ms|
    ensures ms[i].active ==> |ActiveMedications(ToggleMedicationStatus(ms, i))| + 1 == |ActiveMedications(ms)|
    ensures !ms[i].active ==> |ActiveMedications(ToggleMedicationStatus(ms, i))| == |ActiveMedications(ms)| + 1
  {
    CountReplace(ms, i, ms[i].(active := !ms[i].active), IsActive);
  }

  /** The category a record is grouped under: `!med.category` counts as 'Medicamento'. */
  function EffectiveCategory(m: Medication): (c: string)
    ensures c != ""
    ensures m.category != "" ==> c == m.category
    ensures m.category == "" ==> c == Categories[0]
  {
    if m.category == "" then Categories[0] else m.category
  }

  /** `getMedicationsByCategory`: group `k` holds, in order, the records whose
      category is `Categories[k]`, uncategorised records in 'Medicamento'. */
  function ByCategory(ms: seq<Medication>): (g: seq<seq<Medication>>)
    ensures |g| == |Categories|
    ensures forall k, x :: 0 <= k < |Categories| && x in g[k] ==> x in ms && EffectiveCategory(x) == Categories[k]
    ensures forall i :: 0 <= i < |ms| && ms[i].category == "" ==> ms[i] in g[0]
    ensures forall k, i :: 0 <= k < |Categories| && 0 <= i < |ms| && ms[i].category == Categories[k] ==> ms[i] in g[k]
  {
    ByCategoryMembers(ms);
    UncategorisedInFirst(ms);
    GroupBy(ms, EffectiveCategory, Categories)
  }

  lemma ByCategoryMembers(ms: seq<Medication>)
    ensures var g := GroupBy(ms, EffectiveCategory, Categories);
      && (forall k, x :: 0 <= k < |Categories| && x in g[k] ==> x in ms && EffectiveCategory(x) == Categories[k])
      && (forall k, i :: 0 <= k < |Categories| && 0 <= i < |ms| && ms[i].category == Categories[k] ==> ms[i] in g[k])
  {
    var g := GroupBy(ms, EffectiveCategory, Categories);
    forall k | 0 <= k < |Categories|
      ensures forall x :: x in g[k] ==> x in ms && EffectiveCategory(x) == Categories[k]
      ensures forall i :: 0 <= i < |ms| && ms[i].category == Categories[k] ==> ms[i] in g[k]
    {
      CategoryNotEmpty(k);
      GroupMembers(ms, EffectiveCategory, Categories, k);
    }
  }

  lemma CategoryNotEmpty(k: nat)
    requires k < |Categories|
    ensures Categories[k] != ""
  {
    assert |Categories[k]| > 0 by {
      if k == 0 {} else if k == 1 {} else if k == 2 {} else if k == 3 {} else {}
    }
  }

  lemma UncategorisedInFirst(ms: seq<Medication>)
    ensures forall i :: 0 <= i < |ms| && ms[i].category == "" ==> ms[i] in GroupBy(ms, EffectiveCategory, Categories)[0]
  {
    GroupMembers(ms, EffectiveCategory, Categories, 0);
  }

  /** Every record lands in at most one category group, so the groups never hold
      more records than the list; a record with an unlisted category is in none. */
  lemma ByCategoryPartition(ms: seq<Medication>)
    ensures SumLengths(ByCategory(ms)) == Count(ms, KeyIn(EffectiveCategory, Categories)) <= |ms|
    ensures forall a, b, x :: 0 <= a < b < |Categories| ==> !(x in ByCategory(ms)[a] && x in ByCategory(ms)[b])
  {
    CategoriesDistinct();
    GroupByTotal(ms, EffectiveCategory, Categories);
    forall a, b, x | 0 <= a < b < |Categories|
      ensures !(x in ByCategory(ms)[a] && x in ByCategory(ms)[b])
    {
      GroupsDisjoint(ms, EffectiveCategory, Categories, a, b, x);
    }
  }

  lemma CategoriesDistinct()
    ensures Distinct(Categories)
  {
    forall a, b | 0 <= a < b < |Categories|
      ensures Categories[a] != Categories[b]
    {
      assert Categories[a][0] != Categories[b][0];
    }
  }

  /** The pause button of the "Medicamentos de hoy" list as written: the index the
      list renders is the item's index within the active list, and it goes to
      `toggleMedicationStatus`, which indexes the full list. */
  function PauseFromActiveListAsWritten(ms: seq<Medication>, k: nat): (r: seq<Medication>)
    ensures |r| == |ms|
    ensures k < |ms| ==> r[k].active == !ms[k].active
  {
    ToggleMedicationStatus(ms, k)
  }

  /** As written, with a paused record ahead of an active one, pausing the active
      one (the first of the active list) re-activates the paused one instead. */
  lemma PauseAsWrittenHitsWrongRecord()
    ensures var paused := Medication("1", "d", "a", "a", "", "", "", "Medicamento", "", false);
      var active := Medication("2", "d", "b", "b", "", "", "", "Medicamento", "", true);
      var ms := [paused, active];
      && ActiveMedications(ms) == [active]
      && PauseFromActiveListAsWritten(ms, 0) == [paused.(active := true), active]
      && |ActiveMedications(PauseFromActiveListAsWritten(ms, 0))| == 2
  {
    var paused := Medication("1", "d", "a", "a", "", "", "", "Medicamento", "", false);
    var active := Medication("2", "d", "b", "b", "", "", "", "Medicamento", "", true);
    var ms := [paused, active];
    assert ms[..1] == [paused];
    var after := PauseFromActiveListAsWritten(ms, 0);
    assert after[..1] == [paused.(active := true)];
    assert after[..1][..0] == [];
  }

  /** The position in the full list of the `k`-th active record. */
  function ActivePosition(ms: seq<Medication>, k: nat): (p: nat)
    requires k < |ActiveMedications(ms)|
    ensures p < |ms| && ms[p] == ActiveMedications(ms)[k] && ms[p].active
  {
    FilterAtPositions(ms, IsActive);
    Positions(ms, IsActive)[k]
  }

  /** The pause button as intended: toggle the record the pressed item came from. */
  function PauseFromActiveList(ms: seq<Medication>, k: nat): (r: seq<Medication>)
    requires k < |ActiveMedications(ms)|
    ensures |r| == |ms|
  {
    ToggleMedicationStatus(ms, ActivePosition(ms, k))
  }

  /** Pausing the `k`-th active record pauses exactly that record and shortens the
      active list by one. */
  lemma PauseFromActiveListPausesIt(ms: seq<Medication>, k: nat)
    requires k < |ActiveMedications(ms)|
    ensures var r := PauseFromActiveList(ms, k);
      var p := ActivePosition(ms, k);
      && !r[p].active && r[p].(active := true) == ActiveMedications(ms)[k]
      && (forall j :: 0 <= j < |ms| && j != p ==> r[j] == ms[j])
      && |ActiveMedications(r)| + 1 == |ActiveMedications(ms)|
  {
    ToggleMovesBetweenCounts(ms, ActivePosition(ms, k));
  }
}

=== FILE: reminders.dfy ===
/** The reminders screen: the month calendar grid, month and year navigation,
    adding a reminder, today's reminders, and the today / has-reminder marks on
    calendar cells. The screen's `selectedDate` is a `Date`; the clock
    (`new Date()`) and `toLocaleDateString()` are parameters. */
module Reminders {
  import opened Seqs
  import opened Text
  import opened Calendar

  /** One calendar cell: `null` padding before the first, or a day of the month. */
  datatype Cell = Blank | DayCell(day: int)

  /** The layout `getDaysInMonth` returns: one blank per weekday before the first
      of the month (Sunday = 0), then the days 1 .. `DaysInMonth`, nothing after. */
  function MonthGrid(y: int, m: int): (cells: seq<Cell>)
    requires ValidMonth(m)
    ensures |cells| == Weekday(Date(y, m, 1)) + DaysInMonth(y, m)
    ensures forall i :: 0 <= i < Weekday(Date(y, m, 1)) ==> cells[i] == Blank
    ensures forall i :: Weekday(Date(y, m, 1)) <= i < |cells| ==> cells[i] == DayCell(i - Weekday(Date(y, m, 1)) + 1)
  {
    seq(Weekday(Date(y, m, 1)), _ => Blank) + seq(DaysInMonth(y, m), k => DayCell(k + 1))
  }

  /** `getDaysInMonth(date)`: the two push loops of the screen. `DaysInMonth` is the
      date of `new Date(year, month + 1, 0)` (see `Calendar.LastDayRollover`). */
  method GetDaysInMonth(selected: Date) returns (days: seq<Cell>)
    requires ValidMonth(selected.month)
    ensures days == MonthGrid(selected.year, selected.month)
  {
    var year, month := selected.year, selected.month;
    var daysInMonth := DaysInMonth(year, month);
    var startingDayOfWeek := Weekday(Date(year, month, 1));
    days := [];
    var i := 0;
    while i < startingDayOfWeek
      invariant 0 <= i <= startingDayOfWeek
      invariant |days| == i
      invariant forall j :: 0 <= j < i ==> days[j] == Blank
    {
      days := days + [Blank];
      i := i + 1;
    }
    var day := 1;
    while day <= daysInMonth
      invariant 1 <= day <= daysInMonth + 1
      invariant |days| == startingDayOfWeek + day - 1
      invariant forall j :: 0 <= j < startingDayOfWeek ==> days[j] == Blank
      invariant forall j :: startingDayOfWeek <= j < |days| ==> days[j] == DayCell(j - startingDayOfWeek + 1)
    {
      days := days + [DayCell(day)];
      day := day + 1;
    }
  }

  /** Under the header D L M M J V S, every day sits in the column of its weekday. */
  lemma GridColumnIsWeekday(y: int, m: int, i: int)
    requires ValidMonth(m)
    requires 0 <= i < |MonthGrid(y, m)| && MonthGrid(y, m)[i].DayCell?
    ensures i % 7 == Weekday(Date(y, m, MonthGrid(y, m)[i].day))
  {
    var d := MonthGrid(y, m)[i].day;
    WeekdayInMonth(y, m, d);
  }

  /** Day numbers in the grid strictly increase and are exactly the valid days of the month. */
  lemma GridDaysAscending(y: int, m: int, i: int, j: int)
    requires ValidMonth(m)
    requires 0 <= i < j < |MonthGrid(y, m)| && MonthGrid(y, m)[i].DayCell? && MonthGrid(y, m)[j].DayCell?
    ensures MonthGrid(y, m)[i].day < MonthGrid(y, m)[j].day
    ensures ValidDate(Date(y, m, MonthGrid(y, m)[i].day))
  {
  }

  /** February 2024 (a leap year) starts on a Thursday: four blanks, then 1 .. 29. */
  lemma LeapFebruary2024()
    ensures Weekday(Date(2024, 1, 1)) == 4
    ensures |MonthGrid(2024, 1)| == 33
    ensures MonthGrid(2024, 1)[32] == DayCell(29)
  {
  }

  /** `goToPreviousMonth`: the first of the month before; January wraps to December
      of the year before. */
  function PreviousMonth(selected: Date): (r: Date)
    requires ValidMonth(selected.month)
    ensures ValidDate(r) && r.day == 1
    ensures selected.month == 0 ==> r.year == selected.year - 1 && r.month == 11
    ensures selected.month > 0 ==> r.year == selected.year && r.month == selected.month - 1
  {
    FirstOfMonth(selected.year, selected.month - 1)
  }

  /** `goToNextMonth`: the first of the month after; December wraps to January of
      the year after. */
  function NextMonth(selected: Date): (r: Date)
    requires ValidMonth(selected.month)
    ensures ValidDate(r) && r.day == 1
    ensures selected.month == 11 ==> r.year == selected.year + 1 && r.month == 0
    ensures selected.month < 11 ==> r.year == selected.year && r.month == selected.month + 1
  {
    FirstOfMonth(selected.year, selected.month + 1)
  }

  /** `goToPreviousYear`: same month one year earlier, on the first. */
  function PreviousYear(selected: Date): (r: Date)
    requires ValidMonth(selected.month)
    ensures ValidDate(r) && r.day == 1
    ensures MonthIndex(r.year, r.month) == MonthIndex(selected.year, selected.month) - 12
  {
    Date(selected.year - 1, selected.month, 1)
  }

  /** `goToNextYear`: same month one year later, on the first. */
  function NextYear(selected: Date): (r: Date)
    requires ValidMonth(selected.month)
    ensures ValidDate(r) && r.day == 1
    ensures MonthIndex(r.year, r.month) == MonthIndex(selected.year, selected.month) + 12
  {
    Date(selected.year + 1, selected.month, 1)
  }

  /** A valid month is determined by its month index. */
  lemma MonthIndexInjective(a: Date, b: Date)
    requires ValidMonth(a.month) && ValidMonth(b.month)
    requires MonthIndex(a.year, a.month) == MonthIndex(b.year, b.month)
    ensures a.year == b.year && a.month == b.month
  {
  }

  /** Next month then previous month (or the reverse) comes back to the first of
      the month that was shown. */
  lemma MonthNavigationRoundTrip(selected: Date)
    requires ValidMonth(selected.month)
    ensures PreviousMonth(NextMonth(selected)) == Date(selected.year, selected.month, 1)
    ensures NextMonth(PreviousMonth(selected)) == Date(selected.year, selected.month, 1)
  {
    MonthIndexInjective(PreviousMonth(NextMonth(selected)), selected);
    MonthIndexInjective(NextMonth(PreviousMonth(selected)), selected);
  }

  /** Pressing "next month" `n` times. */
  function AdvanceMonths(selected: Date, n: nat): (r: Date)
    requires ValidMonth(selected.month)
    ensures ValidMonth(r.month)
  {
    if n == 0 then selected else NextMonth(AdvanceMonths(selected, n - 1))
  }

  lemma {:induction false} AdvanceMonthsIndex(selected: Date, n: nat)
    requires ValidMonth(selected.month)
    ensures MonthIndex(AdvanceMonths(selected, n).year, AdvanceMonths(selected, n).month)
         == MonthIndex(selected.year, selected.month) + n
  {
    if n > 0 {
      AdvanceMonthsIndex(selected, n - 1);
    }
  }

  /** Twelve presses of "next month" land where one press of "next year" does. */
  lemma TwelveMonthsMakeAYear(selected: Date)
    requires ValidMonth(selected.month)
    ensures AdvanceMonths(selected, 12) == NextYear(selected)
  {
    AdvanceMonthsIndex(selected, 12);
    MonthIndexInjective(AdvanceMonths(selected, 12), NextYear(selected));
  }

  /** Tapping a day cell: `new Date(year, month, day)` of the shown month. */
  function SelectDay(shown: Date, cell: Cell): (r: Date)
    requires ValidMonth(shown.month)
    ensures cell.Blank? ==> r == shown
    ensures cell.DayCell? ==> r.year == shown.year && r.month == shown.month && r.day == cell.day
  {
    if cell.DayCell? then Date(shown.year, shown.month, cell.day) else shown
  }

  /** Whatever cell of the shown month's grid is tapped, the selection stays a
      valid date of the shown month and year. */
  lemma SelectDayInGrid(shown: Date, i: int)
    requires ValidDate(shown) && 0 <= i < |MonthGrid(shown.year, shown.month)|
    ensures ValidDate(SelectDay(shown, MonthGrid(shown.year, shown.month)[i]))
    ensures SelectDay(shown, MonthGrid(shown.year, shown.month)[i]).year == shown.year
    ensures SelectDay(shown, MonthGrid(shown.year, shown.month)[i]).month == shown.month
    ensures MonthGrid(shown.year, shown.month)[i].DayCell? ==>
      SelectDay(shown, MonthGrid(shown.year, shown.month)[i]).day == MonthGrid(shown.year, shown.month)[i].day
  {
  }

  /** The year `new Date(y, m, d)` really uses: ECMAScript's Date constructor reads
      a year argument 0 .. 99 as 1900 .. 1999. */
  function ConstructorYear(y: int): (r: int)
    ensures 0 <= y <= 99 ==> r == 1900 + y
    ensures !(0 <= y <= 99) ==> r == y
  {
    if 0 <= y <= 99 then 1900 + y else y
  }

  /** `goToPreviousMonth` as written, through the Date constructor: the month
      before the shown one, counted from the year the constructor reads. */
  function PreviousMonthAsWritten(selected: Date): (r: Date)
    requires ValidMonth(selected.month)
    ensures ValidDate(r) && r.day == 1
    ensures MonthIndex(r.year, r.month) == MonthIndex(ConstructorYear(selected.year), selected.month) - 1
  {
    FirstOfMonth(ConstructorYear(selected.year), selected.month - 1)
  }

  /** `goToNextMonth` as written, through the Date constructor. */
  function NextMonthAsWritten(selected: Date): (r: Date)
    requires ValidMonth(selected.month)
    ensures ValidDate(r) && r.day == 1
    ensures MonthIndex(r.year, r.month) == MonthIndex(ConstructorYear(selected.year), selected.month) + 1
  {
    FirstOfMonth(ConstructorYear(selected.year), selected.month + 1)
  }

  /** `goToPreviousYear` as written: a target year 0 .. 99 becomes 1900 .. 1999. */
  function PreviousYearAsWritten(selected: Date): (r: Date)
    requires ValidMonth(selected.month)
    ensures ValidDate(r) && r.day == 1 && r.month == selected.month
    ensures 1 <= selected.year <= 100 ==> r.year == selected.year + 1899
    ensures !(1 <= selected.year <= 100) ==> r == PreviousYear(selected)
  {
    Date(ConstructorYear(selected.year - 1), selected.month, 1)
  }

  /** `goToNextYear` as written: a target year 0 .. 99 becomes 1900 .. 1999. */
  function NextYearAsWritten(selected: Date): (r: Date)
    requires ValidMonth(selected.month)
    ensures ValidDate(r) && r.day == 1 && r.month == selected.month
    ensures -1 <= selected.year <= 98 ==> r.year == selected.year + 1901
    ensures !(-1 <= selected.year <= 98) ==> r == NextYear(selected)
  {
    Date(ConstructorYear(selected.year + 1), selected.month, 1)
  }

  /** Tapping a day cell as written: while a year 0 .. 99 is shown, the selected
      day lands in 1900 .. 1999. */
  function SelectDayAsWritten(shown: Date, cell: Cell): (r: Date)
    requires ValidMonth(shown.month)
    ensures cell.Blank? ==> r == shown
    ensures cell.DayCell? ==> r.month == shown.month && r.day == cell.day
    ensures cell.DayCell? && 0 <= shown.year <= 99 ==> r.year == shown.year + 1900
    ensures !(0 <= shown.year <= 99) ==> r == SelectDay(shown, cell)
  {
    if cell.DayCell? then Date(ConstructorYear(shown.year), shown.month, cell.day) else shown
  }

  /** Away from the two-digit years the handlers as written do exactly what the
      model's navigation does. */
  lemma AsWrittenAgreesOutsideTwoDigitYears(selected: Date, cell: Cell)
    requires ValidMonth(selected.month)
    requires !(-1 <= selected.year <= 100)
    ensures PreviousMonthAsWritten(selected) == PreviousMonth(selected)
    ensures NextMonthAsWritten(selected) == NextMonth(selected)
    ensures PreviousYearAsWritten(selected) == PreviousYear(selected)
    ensures NextYearAsWritten(selected) == NextYear(selected)
    ensures SelectDayAsWritten(selected, cell) == SelectDay(selected, cell)
  {
  }

  /** As written, going back from January of year 100 and forward again lands in
      January 2000, not back in January of year 100. */
  lemma NavigationAsWrittenSkipsCenturies()
    ensures PreviousMonthAsWritten(Date(100, 0, 1)) == Date(99, 11, 1)
    ensures NextMonthAsWritten(PreviousMonthAsWritten(Date(100, 0, 1))) == Date(2000, 0, 1)
    ensures PreviousYearAsWritten(Date(100, 0, 1)) == Date(1999, 0, 1)
    ensures NextYearAsWritten(Date(-1, 0, 1)) == Date(1900, 0, 1)
    ensures SelectDayAsWritten(Date(50, 0, 1), DayCell(5)) == Date(1950, 0, 5)
  {
  }

  /** A stored reminder; `date` is `toLocaleDateString()` of the day it was added for. */
  datatype Reminder = Reminder(
    id: string, text: string, title: string, time: string,
    date: string, color: string, fullDate: Date)

  /** The add form's inputs. */
  datatype ReminderForm = ReminderForm(text: string, time: string, title: string, color: string)

  const DefaultTitle: string := "Recordatorio"

  /** What every reminder `AddReminder` stores satisfies. */
  predicate WellFormed(r: Reminder) {
    && !IsBlank(r.text) && r.text == Trim(r.text)
    && !IsBlank(r.time) && r.time == Trim(r.time)
    && !IsBlank(r.title)
  }

  /** The record `addReminder` builds: trimmed text, time and title, the title
      defaulting to "Recordatorio", dated on the selected day. */
  function NewReminder(form: ReminderForm, selected: Date, toLabel: Date -> string, id: string): (n: Reminder)
    ensures n.text == Trim(form.text) && n.time == Trim(form.time)
    ensures IsBlank(form.title) ==> n.title == DefaultTitle
    ensures !IsBlank(form.title) ==> n.title == Trim(form.title)
    ensures n.date == toLabel(selected) && n.fullDate == selected
    ensures n.id == id && n.color == form.color
  {
    var title := if IsBlank(form.title) then DefaultTitle else Trim(form.title);
    Reminder(id, Trim(form.text), title, Trim(form.time), toLabel(selected), form.color, selected)
  }

  /** `addReminder`: nothing happens when the text or the time is blank; otherwise
      exactly the new reminder is appended after the unchanged list. */
  function AddReminder(rs: seq<Reminder>, form: ReminderForm, selected: Date,
                       toLabel: Date -> string, id: string): (r: seq<Reminder>)
    ensures IsBlank(form.text) || IsBlank(form.time) ==> r == rs
    ensures !IsBlank(form.text) && !IsBlank(form.time) ==>
      |r| == |rs| + 1 && r[..|rs|] == rs && r[|rs|] == NewReminder(form, selected, toLabel, id)
  {
    if IsBlank(form.text) || IsBlank(form.time) then rs
    else rs + [NewReminder(form, selected, toLabel, id)]
  }

  lemma DefaultTitleNotBlank()
    ensures !IsBlank(DefaultTitle)
  {
    assert !IsSpace(DefaultTitle[0]);
  }

  /** A reminder built from a form that passes validation is well formed. */
  lemma NewReminderWellFormed(form: ReminderForm, selected: Date, toLabel: Date -> string, id: string)
    requires !IsBlank(form.text) && !IsBlank(form.time)
    ensures WellFormed(NewReminder(form, selected, toLabel, id))
  {
    TrimIdempotent(form.text);
    TrimIdempotent(form.time);
    TrimIdempotent(form.title);
    DefaultTitleNotBlank();
  }

  /** Adding keeps every stored reminder well formed. */
  lemma AddReminderPreservesWellFormed(rs: seq<Reminder>, form: ReminderForm, selected: Date,
                                       toLabel: Date -> string, id: string)
    requires forall i :: 0 <= i < |rs| ==> WellFormed(rs[i])
    ensures var r := AddReminder(rs, form, selected, toLabel, id);
      forall i :: 0 <= i < |r| ==> WellFormed(r[i])
  {
    if !IsBlank(form.text) && !IsBlank(form.time) {
      var n := NewReminder(form, selected, toLabel, id);
      NewReminderWellFormed(form, selected, toLabel, id);
      AppendWellFormed(rs, n);
      assert AddReminder(rs, form, selected, toLabel, id) == rs + [n];
    }
  }

  lemma AppendWellFormed(rs: seq<Reminder>, n: Reminder)
    requires forall i :: 0 <= i < |rs| ==> WellFormed(rs[i])
    requires WellFormed(n)
    ensures forall i :: 0 <= i < |rs + [n]| ==> WellFormed((rs + [n])[i])
  {
    forall i | 0 <= i < |rs + [n]|
      ensures WellFormed((rs + [n])[i])
    {
      if i < |rs| {
        assert (rs + [n])[i] == rs[i];
      }
    }
  }

  /** The filter test `reminder.date === today`. */
  function DatedOn(today: string): Reminder -> bool {
    (r: Reminder) => r.date == today
  }

  /** `getTodayReminders`: the reminders whose date string is today's, in list order. */
  function TodayReminders(rs: seq<Reminder>, today: string): (r: seq<Reminder>)
    ensures |r| <= |rs|
    ensures forall x :: x in r ==> x in rs && x.date == today
    ensures forall i :: 0 <= i < |rs| && rs[i].date == today ==> rs[i] in r
  {
    assert forall i :: 0 <= i < |rs| && rs[i].date == today ==> DatedOn(today)(rs[i]);
    Filter(rs, DatedOn(today))
  }

  /** Today's reminders are the subsequence of the list at exactly the positions
      dated today, in order. */
  lemma TodayRemindersInOrder(rs: seq<Reminder>, today: string)
    ensures var pos := Positions(rs, DatedOn(today));
      && |TodayReminders(rs, today)| == |pos| && Ascending(pos)
      && (forall k :: 0 <= k < |pos| ==> TodayReminders(rs, today)[k] == rs[pos[k]])
      && (forall i :: 0 <= i < |rs| ==> (i in pos <==> rs[i].date == today))
  {
    FilterAtPositions(rs, DatedOn(today));
  }

  /** A reminder added for a day labelled like today shows last in today's list. */
  lemma AddedTodayShowsLast(rs: seq<Reminder>, form: ReminderForm, selected: Date,
                            toLabel: Date -> string, id: string, today: string)
    requires !IsBlank(form.text) && !IsBlank(form.time) && toLabel(selected) == today
    ensures var after := TodayReminders(AddReminder(rs, form, selected, toLabel, id), today);
      && |after| == |TodayReminders(rs, today)| + 1
      && after[|after| - 1] == AddReminder(rs, form, selected, toLabel, id)[|rs|]
  {
    var r := AddReminder(rs, form, selected, toLabel, id);
    assert r == rs + [r[|rs|]];
    FilterAppend(rs, [r[|rs|]], DatedOn(today));
    assert Filter([r[|rs|]], DatedOn(today)) == [r[|rs|]];
  }

  /** `isToday` in `renderCalendarDay`: a day cell of the shown month and year that
      is the current day of `now`. */
  predicate IsTodayCell(cell: Cell, shown: Date, now: Date): (b: bool)
    ensures cell.Blank? ==> !b
    ensures b ==> cell.DayCell? && Date(shown.year, shown.month, cell.day) == now
  {
    cell.DayCell? && cell.day == now.day && shown.month == now.month && shown.year == now.year
  }

  /** While the current month is shown, exactly one cell of its grid is marked
      today, at the position of the current day; in any other month none is. */
  lemma ExactlyOneTodayCell(shown: Date, now: Date, i: int)
    requires ValidMonth(shown.month) && ValidDate(now)
    requires 0 <= i < |MonthGrid(shown.year, shown.month)|
    ensures IsTodayCell(MonthGrid(shown.year, shown.month)[i], shown, now)
        <==> shown.year == now.year && shown.month == now.month
             && i == Weekday(Date(shown.year, shown.month, 1)) + now.day - 1
  {
  }

  /** `reminders.some(...)`: some reminder was added for day `d` of month `m` of year `y`. */
  function AnyOn(rs: seq<Reminder>, y: int, m: int, d: int): (b: bool)
    ensures b <==> exists i :: 0 <= i < |rs| && rs[i].fullDate == Date(y, m, d)
  {
    if |rs| == 0 then false
    else if rs[0].fullDate == Date(y, m, d) then true
    else
      var b := AnyOn(rs[1..], y, m, d);
      assert forall i :: 0 < i < |rs| ==> rs[i] == rs[1..][i - 1];
      b
  }

  /** `hasReminder` in `renderCalendarDay`: padding is never marked, and a day cell
      is marked exactly when a reminder falls on that day of the shown month and year. */
  function HasReminder(cell: Cell, shown: Date, rs: seq<Reminder>): (b: bool)
    ensures cell.Blank? ==> !b
    ensures cell.DayCell? ==>
      (b <==> exists i :: 0 <= i < |rs| && rs[i].fullDate == Date(shown.year, shown.month, cell.day))
  {
    cell.DayCell? && AnyOn(rs, shown.year, shown.month, cell.day)
  }

  /** After adding a reminder, its day carries the reminder dot when its month is shown. */
  lemma AddedReminderMarksItsDay(rs: seq<Reminder>, form: ReminderForm, selected: Date,
                                 toLabel: Date -> string, id: string)
    requires !IsBlank(form.text) && !IsBlank(form.time)
    ensures HasReminder(DayCell(selected.day), selected, AddReminder(rs, form, selected, toLabel, id))
  {
    var r := AddReminder(rs, form, selected, toLabel, id);
    assert r[|rs|].fullDate == Date(selected.year, selected.month, selected.day);
  }
}

=== FILE: seqs.dfy ===
/** Sequence operations the screens build on: JavaScript's `Array.prototype.filter`
    with a predicate, `filter((_, i) => i !== index)` for deletion by position,
    `indexOf`, and the `.filter(...).length` counts shown in the summaries. */
module Seqs {

  /** Strictly increasing sequence of indices. */
  ghost predicate Ascending(r: seq<nat>) {
    forall a, b :: 0 <= a < b < |r| ==> r[a] < r[b]
  }

  /** `s.filter(p)`: the elements satisfying `p`, in their original order. */
  function Filter<T>(s: seq<T>, p: T -> bool): (r: seq<T>)
    ensures |r| <= |s|
    ensures forall x :: x in r ==> x in s && p(x)
    ensures forall i :: 0 <= i < |s| && p(s[i]) ==> s[i] in r
    decreases |s|
  {
    if |s| == 0 then []
    else
      var init := s[..|s| - 1];
      assert forall i :: 0 <= i < |s| - 1 ==> s[i] == init[i];
      Filter(init, p) + (if p(s[|s| - 1]) then [s[|s| - 1]] else [])
  }

  /** The indices `i` with `p(s[i])`, ascending: where `Filter` takes its elements from. */
  function Positions<T>(s: seq<T>, p: T -> bool): (r: seq<nat>)
    ensures forall k :: 0 <= k < |r| ==> r[k] < |s| && p(s[r[k]])
    ensures forall i :: 0 <= i < |s| && p(s[i]) ==> i in r
    ensures Ascending(r)
    decreases |s|
  {
    if |s| == 0 then []
    else
      var init := s[..|s| - 1];
      assert forall i :: 0 <= i < |s| - 1 ==> s[i] == init[i];
      Positions(init, p) + (if p(s[|s| - 1]) then [|s| - 1] else [])
  }

  /** `s.filter(p).length`. */
  function Count<T>(s: seq<T>, p: T -> bool): nat {
    |Filter(s, p)|
  }

  /** `f` is `s` read at the indices `ps`. */
  ghost predicate ReadAt<T>(f: seq<T>, s: seq<T>, ps: seq<nat>) {
    |f| == |ps| && forall k :: 0 <= k < |f| ==> ps[k] < |s| && f[k] == s[ps[k]]
  }

  /** `Filter` is the order-preserving subsequence of `s` taken at exactly the
      positions whose element satisfies `p`. Automatic induction is switched off so
      that the proof is the call to `FilterReadAtPositions`. */
  lemma {:induction false} FilterAtPositions<T>(s: seq<T>, p: T -> bool)
    ensures |Filter(s, p)| == |Positions(s, p)|
    ensures forall k :: 0 <= k < |Filter(s, p)| ==> Filter(s, p)[k] == s[Positions(s, p)[k]]
  {
    FilterReadAtPositions(s, p);
  }

  lemma {:induction false} FilterReadAtPositions<T>(s: seq<T>, p: T -> bool)
    ensures ReadAt(Filter(s, p), s, Positions(s, p))
    decreases |s|
  {
    if |s| > 0 {
      var init := s[..|s| - 1];
      FilterReadAtPositions(init, p);
      var last := s[|s| - 1];
      ExtendReadAt(Filter(init, p), init, Positions(init, p), s,
                   if p(last) then [last] else [], if p(last) then [|s| - 1] else []);
    }
  }

  /** Reading at indices survives appending one element and, possibly, its index. */
  lemma ExtendReadAt<T>(f: seq<T>, init: seq<T>, ps: seq<nat>, s: seq<T>, tail: seq<T>, tailPos: seq<nat>)
    requires ReadAt(f, init, ps)
    requires |s| > 0 && init == s[..|s| - 1]
    requires (tail == [] && tailPos == []) || (tail == [s[|s| - 1]] && tailPos == [|s| - 1])
    ensures ReadAt(f + tail, s, ps + tailPos)
  {
    forall k | 0 <= k < |f|
      ensures (ps + tailPos)[k] < |s| && (f + tail)[k] == s[(ps + tailPos)[k]]
    {
      assert (ps + tailPos)[k] == ps[k];
      assert (f + tail)[k] == f[k];
    }
  }

  /** Filtering distributes over concatenation. */
  lemma {:induction false} FilterAppend<T>(a: seq<T>, b: seq<T>, p: T -> bool)
    ensures Filter(a + b, p) == Filter(a, p) + Filter(b, p)
    decreases |b|
  {
    if |b| > 0 {
      var b' := b[..|b| - 1];
      assert (a + b)[..|a + b| - 1] == a + b';
      FilterAppend(a, b', p);
    } else {
      assert a + b == a;
    }
  }

  /** Counting the elements that satisfy `p` and those that do not covers the whole list. */
  lemma {:induction false} CountComplement<T>(s: seq<T>, p: T -> bool, q: T -> bool)
    requires forall x :: q(x) == !p(x)
    ensures Count(s, p) + Count(s, q) == |s|
    decreases |s|
  {
    if |s| > 0 {
      CountComplement(s[..|s| - 1], p, q);
    }
  }

  /** The count of a disjoint union is the sum of the counts. */
  lemma {:induction false} CountDisjointUnion<T>(s: seq<T>, p: T -> bool, q: T -> bool, pq: T -> bool)
    requires forall x :: pq(x) == (p(x) || q(x))
    requires forall x :: !(p(x) && q(x))
    ensures Count(s, pq) == Count(s, p) + Count(s, q)
    decreases |s|
  {
    if |s| > 0 {
      CountDisjointUnion(s[..|s| - 1], p, q, pq);
    }
  }

  /** Nothing is counted by a test nothing passes. */
  lemma {:induction false} CountNone<T>(s: seq<T>, p: T -> bool)
    requires forall x :: !p(x)
    ensures Count(s, p) == 0
    decreases |s|
  {
    if |s| > 0 {
      CountNone(s[..|s| - 1], p);
    }
  }

  /** Replacing one element changes a count only by what the old and new element contribute. */
  lemma CountReplace<T>(s: seq<T>, i: nat, x: T, p: T -> bool)
    requires i < |s|
    ensures Count(s[i := x], p) + (if p(s[i]) then 1 else 0)
         == Count(s, p) + (if p(x) then 1 else 0)
  {
    var pre, post := s[..i], s[i + 1..];
    assert s == pre + [s[i]] + post;
    assert s[i := x] == pre + [x] + post;
    FilterAppend(pre + [s[i]], post, p);
    FilterAppend(pre, [s[i]], p);
    FilterAppend(pre + [x], post, p);
    FilterAppend(pre, [x], p);
    assert Filter([s[i]], p) == if p(s[i]) then [s[i]] else [];
    assert Filter([x], p) == if p(x) then [x] else [];
  }

  /** JavaScript `list.filter((_, j) => j !== i)`: drops the element at position `i`
      when there is one, and leaves the list alone otherwise. */
  function RemoveAt<T>(s: seq<T>, i: int): (r: seq<T>)
    ensures 0 <= i < |s| ==> |r| == |s| - 1
    ensures 0 <= i < |s| ==> forall j :: 0 <= j < i ==> r[j] == s[j]
    ensures 0 <= i < |s| ==> forall j :: i <= j < |r| ==> r[j] == s[j + 1]
    ensures !(0 <= i < |s|) ==> r == s
  {
    if 0 <= i < |s| then s[..i] + s[i + 1..] else s
  }

  /** Deleting the element just appended undoes the append. */
  lemma RemoveAppended<T>(s: seq<T>, x: T)
    ensures RemoveAt(s + [x], |s|) == s
  {
  }

  /** Deleting keeps every other element: the removed one plus the rest is the original multiset. */
  lemma RemoveAtMultiset<T>(s: seq<T>, i: int)
    requires 0 <= i < |s|
    ensures multiset(RemoveAt(s, i)) + multiset{s[i]} == multiset(s)
  {
    assert s == s[..i] + [s[i]] + s[i + 1..];
  }

  /** Deleting an element lowers a count exactly when the element satisfied it. */
  lemma CountRemoveAt<T>(s: seq<T>, i: int, p: T -> bool)
    requires 0 <= i < |s|
    ensures Count(RemoveAt(s, i), p) + (if p(s[i]) then 1 else 0) == Count(s, p)
  {
    assert s == s[..i] + [s[i]] + s[i + 1..];
    FilterAppend(s[..i] + [s[i]], s[i + 1..], p);
    FilterAppend(s[..i], [s[i]], p);
    FilterAppend(s[..i], s[i + 1..], p);
    assert Filter([s[i]], p) == if p(s[i]) then [s[i]] else [];
  }

  /** Appending one element raises a count exactly when the element satisfies it. */
  lemma CountAppend<T>(s: seq<T>, x: T, p: T -> bool)
    ensures Count(s + [x], p) == Count(s, p) + (if p(x) then 1 else 0)
  {
    assert (s + [x])[..|s + [x]| - 1] == s;
  }

  /** JavaScript `s.indexOf(x)`: the first position holding `x`, or -1. */
  function IndexOf<T(==)>(s: seq<T>, x: T): (r: int)
    ensures -1 <= r < |s|
    ensures r == -1 <==> x !in s
    ensures 0 <= r ==> s[r] == x && forall j :: 0 <= j < r ==> s[j] != x
  {
    if |s| == 0 then -1
    else if s[0] == x then 0
    else
      var k := IndexOf(s[1..], x);
      if k == -1 then -1 else k + 1
  }

  /** The test `x => key(x) === v` of one group. */
  function KeyIs<T>(key: T -> string, v: string): T -> bool {
    x => key(x) == v
  }

  /** The test "the key is one of `keys`". */
  function KeyIn<T>(key: T -> string, keys: seq<string>): T -> bool {
    x => key(x) in keys
  }

  /** `keys.forEach(v => grouped[v] = s.filter(x => key(x) === v))`: group `k`
      holds, in order, the elements whose key is `keys[k]`. */
  function GroupBy<T>(s: seq<T>, key: T -> string, keys: seq<string>): (g: seq<seq<T>>)
    ensures |g| == |keys|
    ensures forall k :: 0 <= k < |keys| ==> g[k] == Filter(s, KeyIs(key, keys[k]))
  {
    if |keys| == 0 then []
    else [Filter(s, KeyIs(key, keys[0]))] + GroupBy(s, key, keys[1..])
  }

  /** Group `k` holds the elements of `s` whose key is `keys[k]`, and all of them. */
  lemma GroupMembers<T>(s: seq<T>, key: T -> string, keys: seq<string>, k: nat)
    requires k < |keys|
    ensures forall x :: x in GroupBy(s, key, keys)[k] ==> x in s && key(x) == keys[k]
    ensures forall i :: 0 <= i < |s| && key(s[i]) == keys[k] ==> s[i] in GroupBy(s, key, keys)[k]
  {
    var p := KeyIs(key, keys[k]);
    assert forall x :: p(x) == (key(x) == keys[k]);
  }

  function SumLengths<T>(g: seq<seq<T>>): nat {
    if |g| == 0 then 0 else |g[0]| + SumLengths(g[1..])
  }

  predicate Distinct(keys: seq<string>) {
    forall a, b :: 0 <= a < b < |keys| ==> keys[a] != keys[b]
  }

  /** With distinct keys the groups together hold exactly the elements whose key
      is listed, each once: never more elements than the list has. */
  lemma {:induction false} GroupByTotal<T>(s: seq<T>, key: T -> string, keys: seq<string>)
    requires Distinct(keys)
    ensures SumLengths(GroupBy(s, key, keys)) == Count(s, KeyIn(key, keys)) <= |s|
    decreases |keys|
  {
    if |keys| == 0 {
      CountNone(s, KeyIn(key, keys));
    } else {
      GroupByTotal(s, key, keys[1..]);
      assert forall x :: KeyIn(key, keys)(x) == (KeyIs(key, keys[0])(x) || KeyIn(key, keys[1..])(x));
      CountDisjointUnion(s, KeyIs(key, keys[0]), KeyIn(key, keys[1..]), KeyIn(key, keys));
    }
  }

  /** Distinct keys make the groups pairwise disjoint. */
  lemma GroupsDisjoint<T>(s: seq<T>, key: T -> string, keys: seq<string>, a: nat, b: nat, x: T)
    requires Distinct(keys) && a < |keys| && b < |keys| && a != b
    ensures !(x in GroupBy(s, key, keys)[a] && x in GroupBy(s, key, keys)[b])
  {
    if a < b {
      assert keys[a] != keys[b];
    } else {
      assert keys[b] != keys[a];
    }
  }
}

=== FILE: text.dfy ===
/** JavaScript `String.prototype.trim` and the `!s.trim()` blank test every
    add-form uses as its validation. */
module Text {

  /** The characters `trim` strips: ECMAScript WhiteSpace and LineTerminator. */
  predicate IsSpace(c: char) {
    || c == ' ' || c == '\t' || c == '\n' || c == '\r'
    || c == '\U{000B}' || c == '\U{000C}' || c == '\U{00A0}' || c == '\U{1680}'
    || ('\U{2000}' <= c <= '\U{200A}')
    || c == '\U{2028}' || c == '\U{2029}' || c == '\U{202F}' || c == '\U{205F}'
    || c == '\U{3000}' || c == '\U{FEFF}'
  }

  predicate AllSpace(s: string) {
    forall i :: 0 <= i < |s| ==> IsSpace(s[i])
  }

  /** Drops leading white space. */
  function TrimStart(s: string): (r: string)
    ensures |r| <= |s|
  {
    if |s| > 0 && IsSpace(s[0]) then TrimStart(s[1..]) else s
  }

  /** Drops trailing white space. */
  function TrimEnd(s: string): (r: string)
    ensures |r| <= |s|
  {
    if |s| > 0 && IsSpace(s[|s| - 1]) then TrimEnd(s[..|s| - 1]) else s
  }

  /** `TrimStart` keeps a suffix and cuts only white space, up to a non-space character. */
  lemma {:induction false} TrimStartSpec(s: string)
    ensures var r := TrimStart(s);
      && r == s[|s| - |r|..] && AllSpace(s[..|s| - |r|])
      && (r == [] || !IsSpace(r[0]))
    decreases |s|
  {
    if |s| > 0 && IsSpace(s[0]) {
      TrimStartSpec(s[1..]);
      var r := TrimStart(s);
      assert s[..|s| - |r|] == [s[0]] + s[1..][..|s[1..]| - |r|];
    }
  }

  /** `TrimEnd` keeps a prefix and cuts only white space, back to a non-space character. */
  lemma {:induction false} TrimEndSpec(s: string)
    ensures var r := TrimEnd(s);
      && r == s[..|r|] && AllSpace(s[|r|..])
      && (r == [] || !IsSpace(r[|r| - 1]))
    decreases |s|
  {
    if |s| > 0 && IsSpace(s[|s| - 1]) {
      TrimEndSpec(s[..|s| - 1]);
      var r := TrimEnd(s);
      assert s[|r|..] == s[..|s| - 1][|r|..] + [s[|s| - 1]];
    }
  }

  /** How many leading white-space characters `trim` cuts from `s`. */
  function LeadingSpace(s: string): nat {
    |s| - |TrimStart(s)|
  }

  /** `s.trim()`: empty exactly when `s` is white space only. */
  function Trim(s: string): (r: string)
    ensures |r| <= |s|
    ensures r == [] <==> AllSpace(s)
  {
    TrimStartSpec(s);
    TrimEndSpec(TrimStart(s));
    var t := TrimStart(s);
    assert TrimEnd(t) == [] ==> s == s[..|s| - |t|] + t;
    assert TrimEnd(t) != [] ==> TrimEnd(t)[0] == t[0];
    TrimEnd(t)
  }

  /** `trim` keeps the infix of `s` between its leading and trailing white space,
      cuts only white space, and leaves no white space at either end. */
  lemma TrimSpec(s: string)
    ensures var r := Trim(s);
      && LeadingSpace(s) + |r| <= |s|
      && r == s[LeadingSpace(s)..LeadingSpace(s) + |r|]
      && AllSpace(s[..LeadingSpace(s)]) && AllSpace(s[LeadingSpace(s) + |r|..])
      && (r == [] || (!IsSpace(r[0]) && !IsSpace(r[|r| - 1])))
  {
    TrimStartSpec(s);
    var t := TrimStart(s);
    TrimEndSpec(t);
    var r := TrimEnd(t);
    assert r != [] ==> r[0] == t[0];
    assert s[|s| - |t| + |r|..] == t[|r|..];
  }

  /** `!s.trim()`: the input is empty or white space only. */
  predicate IsBlank(s: string) {
    Trim(s) == []
  }

  /** A string without white space at either end is its own trim. */
  lemma TrimUnpadded(s: string)
    requires s == [] || (!IsSpace(s[0]) && !IsSpace(s[|s| - 1]))
    ensures Trim(s) == s
  {
  }

  /** Trimming twice is trimming once. */
  lemma TrimIdempotent(s: string)
    ensures Trim(Trim(s)) == Trim(s)
  {
    TrimSpec(s);
    TrimUnpadded(Trim(s));
  }
}

=== FILE: therapies.dfy ===
/** The therapy screen: adding a session, setting and cycling its status,
    deleting by position, and the upcoming / completed / by-status views with
    the summary counts. The id (`Date.now()`) and today's date string are
    parameters. A missing status is the empty string. */
module Therapies {
  import opened Seqs
  import opened Text

  const Programada: string := "Programada"
  const Completada: string := "Completada"
  const Cancelada: string := "Cancelada"
  const Reagendada: string := "Reagendada"

  /** The screen's `statuses`, in cycle order. */
  const Statuses: seq<string> := [Programada, Completada, Cancelada, Reagendada]

  /** A stored session; `kind` is the source's `type`. */
  datatype Therapy = Therapy(
    id: string, name: string, date: string, kind: string, therapist: string,
    location: string, notes: string, duration: string, color: string,
    category: string, status: string, dateAdded: string, completed: bool)

  /** The add form's inputs and selectors. */
  datatype TherapyForm = TherapyForm(
    name: string, date: string, kind: string, therapist: string, location: string,
    notes: string, duration: string, color: string, category: string, status: string)

  /** The `completed` flag agrees with the status. */
  predicate Consistent(t: Therapy) {
    t.completed == (t.status == Completada)
  }

  predicate AllConsistent(ts: seq<Therapy>) {
    forall i :: 0 <= i < |ts| ==> Consistent(ts[i])
  }

  /** The record `addTherapy` builds from the form. */
  function NewTherapy(form: TherapyForm, id: string, today: string): (t: Therapy)
    ensures t.name == Trim(form.name) && t.date == Trim(form.date)
    ensures t.status == form.status && Consistent(t)
    ensures t.kind == Trim(form.kind) && t.therapist == Trim(form.therapist)
    ensures t.location == Trim(form.location) && t.notes == Trim(form.notes)
    ensures t.duration == form.duration && t.dateAdded == today && t.id == id
    ensures t.color == form.color && t.category == form.category
  {
    Therapy(id, Trim(form.name), Trim(form.date), Trim(form.kind), Trim(form.therapist),
            Trim(form.location), Trim(form.notes), form.duration, form.color,
            form.category, form.status, today, form.status == Completada)
  }

  /** `addTherapy`: a no-op when the name or the date is blank; otherwise the new
      session is appended after the unchanged list. */
  function AddTherapy(ts: seq<Therapy>, form: TherapyForm, id: string, today: string): (r: seq<Therapy>)
    ensures IsBlank(form.name) || IsBlank(form.date) ==> r == ts
    ensures !IsBlank(form.name) && !IsBlank(form.date) ==>
      |r| == |ts| + 1 && r[..|ts|] == ts && r[|ts|] == NewTherapy(form, id, today)
  {
    if IsBlank(form.name) || IsBlank(form.date) then ts
    else ts + [NewTherapy(form, id, today)]
  }

  /** `updateTherapyStatus(index, newStatus)`: only position `i` changes, and there
      only its status and `completed` flag. */
  function UpdateTherapyStatus(ts: seq<Therapy>, i: int, s: string): (r: seq<Therapy>)
    ensures |r| == |ts|
    ensures forall j :: 0 <= j < |ts| && j != i ==> r[j] == ts[j]
    ensures 0 <= i < |ts| ==> r[i].status == s && Consistent(r[i])
    ensures 0 <= i < |ts| ==> r[i].(status := ts[i].status, completed := ts[i].completed) == ts[i]
  {
    if 0 <= i < |ts| then ts[i := ts[i].(status := s, completed := s == Completada)] else ts
  }

  /** `deleteTherapy(index)`. */
  function DeleteTherapy(ts: seq<Therapy>, i: int): (r: seq<Therapy>)
    ensures 0 <= i < |ts| ==> |r| == |ts| - 1 && multiset(r) + multiset{ts[i]} == multiset(ts)
    ensures 0 <= i < |ts| ==> forall j :: 0 <= j < |r| ==> r[j] == ts[if j < i then j else j + 1]
    ensures !(0 <= i < |ts|) ==> r == ts
    ensures 0 <= i < |ts| ==> |Upcoming(r)| + (if IsUpcoming(ts[i]) then 1 else 0) == |Upcoming(ts)|
    ensures 0 <= i < |ts| ==> |CompletedTherapies(r)| + (if IsCompleted(ts[i]) then 1 else 0) == |CompletedTherapies(ts)|
  {
    if 0 <= i < |ts| then
      RemoveAtMultiset(ts, i);
      CountRemoveAt(ts, i, IsUpcoming);
      CountRemoveAt(ts, i, IsCompleted);
      RemoveAt(ts, i)
    else ts
  }

  /** Deleting the session just added restores the list. */
  lemma AddThenDeleteRestores(ts: seq<Therapy>, form: TherapyForm, id: string, today: string)
    requires !IsBlank(form.name) && !IsBlank(form.date)
    ensures DeleteTherapy(AddTherapy(ts, form, id, today), |ts|) == ts
  {
    RemoveAppended(ts, NewTherapy(form, id, today));
  }

  /** Adding keeps `completed` in step with the status. */
  lemma AddTherapyKeepsConsistent(ts: seq<Therapy>, form: TherapyForm, id: string, today: string)
    requires AllConsistent(ts)
    ensures AllConsistent(AddTherapy(ts, form, id, today))
  {
    var r := AddTherapy(ts, form, id, today);
    if !IsBlank(form.name) && !IsBlank(form.date) {
      assert r == ts + [NewTherapy(form, id, today)];
      assert forall j :: 0 <= j < |ts| ==> r[j] == ts[j];
    }
  }

  /** Setting a status and deleting keep `completed` in step with the status. */
  lemma UpdateAndDeleteKeepConsistent(ts: seq<Therapy>, i: int, s: string)
    requires AllConsistent(ts)
    ensures AllConsistent(UpdateTherapyStatus(ts, i, s))
    ensures AllConsistent(DeleteTherapy(ts, i))
  {
  }

  /** The status a session shows: `item.status || 'Programada'`. */
  function ShownStatus(s: string): (r: string)
    ensures r != ""
    ensures s != "" ==> r == s
    ensures s == "" ==> r == Programada
  {
    if s == "" then Programada else s
  }

  /** The badge's next status: `statuses[(statuses.indexOf(shown) + 1) % 4]`. An
      unknown status has index -1 and so moves to "Programada". */
  function NextStatus(s: string): (r: string)
    ensures r in Statuses
    ensures ShownStatus(s) == Programada ==> r == Completada
    ensures s == Completada ==> r == Cancelada
    ensures s == Cancelada ==> r == Reagendada
    ensures s == Reagendada ==> r == Programada
    ensures ShownStatus(s) !in Statuses ==> r == Programada
  {
    Statuses[(IndexOf(Statuses, ShownStatus(s)) + 1) % |Statuses|]
  }

  /** Four presses of the badge bring every listed status back. */
  lemma StatusCycleHasPeriodFour(s: string)
    requires s in Statuses
    ensures NextStatus(NextStatus(NextStatus(NextStatus(s)))) == s
  {
    assert NextStatus(Programada) == Completada;
    assert NextStatus(Completada) == Cancelada;
    assert NextStatus(Cancelada) == Reagendada;
    assert NextStatus(Reagendada) == Programada;
  }

  /** Pressing the status badge of the session at position `i`. */
  function CycleStatus(ts: seq<Therapy>, i: nat): (r: seq<Therapy>)
    requires i < |ts|
    ensures |r| == |ts| && r[i].status == NextStatus(ts[i].status) && Consistent(r[i])
    ensures r[i].(status := ts[i].status, completed := ts[i].completed) == ts[i]
    ensures forall j :: 0 <= j < |ts| && j != i ==> r[j] == ts[j]
  {
    UpdateTherapyStatus(ts, i, NextStatus(ts[i].status))
  }

  /** Four presses on a consistent session with a listed status change nothing. */
  lemma CycleFourTimesIsIdentity(ts: seq<Therapy>, i: nat)
    requires i < |ts| && ts[i].status in Statuses && Consistent(ts[i])
    ensures CycleStatus(CycleStatus(CycleStatus(CycleStatus(ts, i), i), i), i) == ts
  {
    StatusCycleHasPeriodFour(ts[i].status);
    var r := CycleStatus(CycleStatus(CycleStatus(CycleStatus(ts, i), i), i), i);
    assert r[i] == ts[i];
  }

  predicate IsUpcoming(t: Therapy) {
    t.status == Programada || t.status == Reagendada
  }

  predicate IsCompleted(t: Therapy) {
    t.status == Completada
  }

  /** `getUpcomingTherapies`: the sessions scheduled or rescheduled, in list order. */
  function Upcoming(ts: seq<Therapy>): (r: seq<Therapy>)
    ensures forall x :: x in r ==> x in ts && IsUpcoming(x)
    ensures forall i :: 0 <= i < |ts| && IsUpcoming(ts[i]) ==> ts[i] in r
  {
    Filter(ts, IsUpcoming)
  }

  /** `getCompletedTherapies`: the sessions completed, in list order. */
  function CompletedTherapies(ts: seq<Therapy>): (r: seq<Therapy>)
    ensures forall x :: x in r ==> x in ts && x.status == Completada
    ensures forall i :: 0 <= i < |ts| && ts[i].status == Completada ==> ts[i] in r
  {
    Filter(ts, IsCompleted)
  }

  /** The summary's "Próximas" and "Completadas" never add up past "Total". */
  lemma SummaryBound(ts: seq<Therapy>)
    ensures |Upcoming(ts)| + |CompletedTherapies(ts)| <= |ts|
  {
    var either := (t: Therapy) => IsUpcoming(t) || IsCompleted(t);
    CountDisjointUnion(ts, IsUpcoming, IsCompleted, either);
  }

  /** Each view is the list taken at exactly its matching positions, in order. */
  lemma ViewsInOrder(ts: seq<Therapy>)
    ensures |Upcoming(ts)| == |Positions(ts, IsUpcoming)|
    ensures |CompletedTherapies(ts)| == |Positions(ts, IsCompleted)|
    ensures forall k :: 0 <= k < |Upcoming(ts)| ==> Upcoming(ts)[k] == ts[Positions(ts, IsUpcoming)[k]]
    ensures forall k :: 0 <= k < |CompletedTherapies(ts)| ==>
      CompletedTherapies(ts)[k] == ts[Positions(ts, IsCompleted)[k]]
  {
    FilterAtPositions(ts, IsUpcoming);
    FilterAtPositions(ts, IsCompleted);
  }

  function Status(t: Therapy): string {
    t.status
  }

  /** `getTherapiesByStatus`: group `k` holds, in order, the sessions whose status
      is `Statuses[k]`; a session without a listed status is in no group. */
  function ByStatus(ts: seq<Therapy>): (g: seq<seq<Therapy>>)
    ensures |g| == |Statuses|
    ensures forall k, x :: 0 <= k < |Statuses| && x in g[k] ==> x in ts && x.status == Statuses[k]
    ensures forall k, i :: 0 <= k < |Statuses| && 0 <= i < |ts| && ts[i].status == Statuses[k] ==> ts[i] in g[k]
  {
    var g := GroupBy(ts, Status, Statuses);
    assert forall k, x :: 0 <= k < |Statuses| && x in g[k] ==> x in ts && x.status == Statuses[k] by {
      forall k | 0 <= k < |Statuses| {
        GroupMembers(ts, Status, Statuses, k);
      }
    }
    assert forall k, i :: 0 <= k < |Statuses| && 0 <= i < |ts| && ts[i].status == Statuses[k] ==> ts[i] in g[k] by {
      forall k | 0 <= k < |Statuses| {
        GroupMembers(ts, Status, Statuses, k);
      }
    }
    g
  }

  /** The groups are pairwise disjoint and together hold exactly the sessions with
      a listed status, so never more than the list. */
  lemma ByStatusPartition(ts: seq<Therapy>)
    ensures SumLengths(ByStatus(ts)) == Count(ts, KeyIn(Status, Statuses)) <= |ts|
    ensures forall a, b, x :: 0 <= a < b < |Statuses| ==> !(x in ByStatus(ts)[a] && x in ByStatus(ts)[b])
  {
    StatusesDistinct();
    GroupByTotal(ts, Status, Statuses);
    forall a, b, x | 0 <= a < b < |Statuses|
      ensures !(x in ByStatus(ts)[a] && x in ByStatus(ts)[b])
    {
      GroupsDisjoint(ts, Status, Statuses, a, b, x);
    }
  }

  lemma StatusesDistinct()
    ensures Distinct(Statuses)
  {
    forall a, b | 0 <= a < b < |Statuses|
      ensures Statuses[a] != Statuses[b]
    {
      assert Statuses[a][1] != Statuses[b][1];
    }
  }

  /** `therapies.indexOf(item)` for the `k`-th upcoming session: the position in
      the full list that the item was taken from. */
  function UpcomingPosition(ts: seq<Therapy>, k: nat): (p: nat)
    requires k < |Upcoming(ts)|
    ensures p < |ts| && ts[p] == Upcoming(ts)[k]
  {
    FilterAtPositions(ts, IsUpcoming);
    Positions(ts, IsUpcoming)[k]
  }

  /** The check button of the `k`-th upcoming session sets that session to "Completada". */
  function CompleteUpcoming(ts: seq<Therapy>, k: nat): (r: seq<Therapy>)
    requires k < |Upcoming(ts)|
    ensures |r| == |ts|
    ensures var p := UpcomingPosition(ts, k);
      r[p] == ts[p].(status := Completada, completed := true)
      && forall j :: 0 <= j < |ts| && j != p ==> r[j] == ts[j]
  {
    UpdateTherapyStatus(ts, UpcomingPosition(ts, k), Completada)
  }

  /** Completing an upcoming session completes exactly that session: it leaves the
      upcoming view and joins the completed one, and nothing else changes. */
  lemma CompleteUpcomingMovesOne(ts: seq<Therapy>, k: nat)
    requires k < |Upcoming(ts)|
    ensures var r := CompleteUpcoming(ts, k);
      var p := UpcomingPosition(ts, k);
      && r[p].status == Completada && r[p].completed
      && r[p].(status := ts[p].status, completed := ts[p].completed) == ts[p]
      && (forall j :: 0 <= j < |ts| && j != p ==> r[j] == ts[j])
      && |Upcoming(r)| + 1 == |Upcoming(ts)|
      && |CompletedTherapies(r)| == |CompletedTherapies(ts)| + 1
  {
    var p := UpcomingPosition(ts, k);
    var r := CompleteUpcoming(ts, k);
    assert r == ts[p := r[p]];
    CountReplace(ts, p, r[p], IsUpcoming);
    CountReplace(ts, p, r[p], IsCompleted);
  }
}
